=== FILE: README.md ===
# NSIDC DataViewer frame pipeline, in Dafny

This project models the frame-resolution pipeline of the NSIDC DataViewer, an
animation of daily and weekly sea-ice grids. The pipeline lives in
`nsidc_dataviewer_utils.py`. For every animation frame `render(index)` does
the following:

- takes the frame's date from the session's dates array;
- in range mode, also takes the end date six days later;
- formats the dataset path from a template;
- reads the flat unsigned-byte file, skipping a 300-byte header when the
  path contains "0051", or reads a PNG image;
- draws the grid under a title carrying the date, clamped to the session's
  separate byte.

A missing file, a binary file of the wrong length, or a PNG that the image
decoder rejects with ValueError falls back to the last grid that decoded
(`LAST_DATASET`), drawn under "FILE MISSING FOR" or "CORRUPTED FILE FOR".

Modules, one per file:

- `Wrappers` (wrappers.dfy): `Option` and `Result`.
- `Decimal` (decimal.dfy): Python's `str` on naturals, `str.zfill`, and
  `int()` on text, with the round trips between them.
- `Dates` (dates.dfy): a date is a proleptic-Gregorian day ordinal, as in
  Python's `date.toordinal`.
  - Its year, month and day come from Python's own ordinal-to-civil
    conversion. That conversion is proved to be the inverse of
    civil-to-ordinal.
  - `str(date)` is `IsoFormat`.
  - `form_smashed_date` is `SmashedDate`.
  - Adding a `timedelta` is `AddDays`, which fails past year 9999.
- `DateSequencer` (date_sequencer.dfy):
  - `single_daterange`, `week_daterange` and `get_current_datetime`, as
    functions;
  - `generate_dates_array`, as a method with an appending loop.
- `PathFormatter` (path_formatter.dfy): `form_uri` over templates made of
  literal and `{field}` tokens. It also holds the dataset families' path
  templates.
- `GridDecoder` (grid_decoder.dfy):
  - row-major `reshape` and its inverse;
  - `separate_data`;
  - the substring test behind the header offset;
  - the decode of a file after the offset;
  - `get_current_dataset_shape`.

  The file system is a map from path to bytes.
- `Renderer` (renderer.dfy):
  - `create_plot`;
  - the pure specification `RenderStep` of one `render` call;
  - the class `Session`, which holds:
    - the `const` settings;
    - the `LAST_DATASET` cache;
    - the frames handed to the plotting backend;
    - the lines printed.

  `Session.Render` is proved to do exactly what `RenderStep` says.

Behaviours of the code that the model keeps as written, although they may
look unintended:

- The clamp applies whenever the separate byte is not 0, a negative one
  included. It also applies to fallback frames, not only to freshly decoded
  grids.
- `render` returns `None`, not a one-element list, after either fallback.
  Only the `else:` clause of the `try` returns `[image]`.
- With nothing cached, a fallback raises NameError after printing its
  notice. There is no empty-grid sentinel.
- The 300-byte header is chosen by the substring test `"0051" in file_uri`,
  not by dataset family. A weekly "0046" path whose start date is
  2005-10-01 also skips 300 bytes (`DateTokenTriggersOffset`).
- A successful PNG frame is not cached. In range mode off, the PNG branch
  reads the unbound `start_date`, and that error escapes.
- The smashed date token is `str(year)` without padding. It is 8 characters
  only for four-digit years.
- The weekly frame count truncates toward zero (`int(days / 7)`).

## Model

| member | source | states |
|---|---|---|
| DateSequencer.SingleDaterange | nsidc_dataviewer_utils.py:9-11 | the daily sequence has exactly `DailyCount(start, end)` dates, that is `max(0, (end - start).days)` |
| DateSequencer.WeekDaterange | nsidc_dataviewer_utils.py:13-15 | the weekly sequence has exactly `WeeklyCount` dates, that is `max(0, int(days / 7))` with truncation toward zero |
| DateSequencer.TruncDiv | nsidc_dataviewer_utils.py:14 | `int(x / y)` truncates toward zero: for `x >= 0`, `q * y` is the largest multiple of `y` not above `x`; for `x < 0`, it is the smallest multiple of `y` not below `x`, and never positive |
| DateSequencer.DailyFrames | nsidc_dataviewer_utils.py:9-11 | the count is `end - start` when end is later, else 0, and the n-th daily date is `start + n` |
| DateSequencer.DailyMembership | nsidc_dataviewer_utils.py:9-11 | a date is a daily frame exactly when `start <= d < end` |
| DateSequencer.DailyStep | nsidc_dataviewer_utils.py:9-11 | consecutive daily frames are exactly one day apart, so the sequence strictly increases |
| DateSequencer.DailyExcludesEnd | nsidc_dataviewer_utils.py:9-11 | the end date is never a daily frame |
| DateSequencer.WeeklyFrames | nsidc_dataviewer_utils.py:13-15 | the count is `(end - start) / 7` for spans of at least a week, else 0, and the n-th weekly date is `start + 7n` |
| DateSequencer.WeeklyMembership | nsidc_dataviewer_utils.py:13-15 | a date is a weekly frame exactly when it is a whole number of weeks after `start` and its week ends no later than `end` |
| DateSequencer.WeeklyStep | nsidc_dataviewer_utils.py:13-15 | consecutive weekly frames are exactly seven days apart |
| DateSequencer.EmptyWhenNotAfter | nsidc_dataviewer_utils.py:9-15 | a span that is zero or negative yields no frames in either mode |
| DateSequencer.GenerateDatesArray | nsidc_dataviewer_utils.py:30-38 | the appending loop builds exactly the weekly sequence when `week` is given, else the daily one |
| DateSequencer.GetCurrentDatetime | nsidc_dataviewer_utils.py:40-41 | a date is found exactly for indices in `[-len, len)`, and it is the element at Python's index (negative indices count from the end); any other index is an IndexError |
| Dates.Year | nsidc_dataviewer_utils.py:18 | the year of a date lies in 1..9999 |
| Dates.Month | nsidc_dataviewer_utils.py:18 | the month of a date lies in 1..12 |
| Dates.Day | nsidc_dataviewer_utils.py:18 | the day of a date lies in 1..31 |
| Dates.FromOrdinalInverse | nsidc_dataviewer_utils.py:18 | the (year, month, day) view of every date is a valid calendar date whose day ordinal is that date |
| Dates.ToOrdinalInverse | nsidc_dataviewer_utils.py:18 | every valid calendar date in years 1..9999 has an ordinal in range whose (year, month, day) view gives it back |
| Dates.ToOrdinalInjective | nsidc_dataviewer_utils.py:18 | distinct calendar dates have distinct ordinals |
| Dates.FromOrdinalInjective | nsidc_dataviewer_utils.py:18 | distinct dates have distinct (year, month, day) views |
| Dates.OrdinalWithinYear | nsidc_dataviewer_utils.py:18 | a calendar date's ordinal falls within its own year's span of ordinals |
| Dates.AddDays | nsidc_dataviewer_utils.py:166 | `date + timedelta(days=k)` succeeds exactly when the result is a representable date, and it is then exactly k days later |
| Dates.SmashedDateFields | nsidc_dataviewer_utils.py:17-18 | the smashed token is all digits, begins with `str(year)`, and is 4 characters longer than it |
| Dates.SmashedDateLength | nsidc_dataviewer_utils.py:17-18 | the smashed token is 8 characters exactly when the year has four digits |
| Dates.SmashedDateRoundTrip | nsidc_dataviewer_utils.py:17-18 | reading the token back as year digits, then two month digits, then two day digits gives the date's (year, month, day) |
| Dates.SmashedDateInjective | nsidc_dataviewer_utils.py:17-18 | distinct dates have distinct smashed tokens |
| Dates.IsoFormatFields | nsidc_dataviewer_utils.py:55-57 | `str(date)` is ten characters `YYYY-MM-DD` whose fields read back as the date's year, month and day |
| Dates.IsoFormatInjective | nsidc_dataviewer_utils.py:55-57 | distinct dates print differently |
| Decimal.Show | nsidc_dataviewer_utils.py:18 | `str(n)` is a non-empty string of digits with a leading zero only for 0 |
| Decimal.ValueOfShow | nsidc_dataviewer_utils.py:18 | reading `str(n)` back as decimal gives `n` |
| Decimal.ShowInjective | nsidc_dataviewer_utils.py:18 | distinct naturals print differently |
| Decimal.ShowLength | nsidc_dataviewer_utils.py:18 | `str(n)` has at most k digits exactly when `n < 10^k` |
| Decimal.ShowFourDigits | nsidc_dataviewer_utils.py:18 | `str(n)` has four digits exactly when `1000 <= n < 10000` |
| Decimal.ZFillShow | nsidc_dataviewer_utils.py:18 | `str(n).zfill(w)` for `n < 10^w` is exactly w digits whose value is n |
| Decimal.StripLeft | nsidc_dataviewer_utils.py:91-92 | the leading characters `int()` skips are removed, and no more: space, tab, line feed, vertical tab, form feed, carriage return and non-ASCII whitespace, but not the separators 0x1C-0x1F |
| Decimal.StripRight | nsidc_dataviewer_utils.py:91-92 | the trailing characters `int()` skips, the same set, are removed, and no more |
| Decimal.DropUnderscores | nsidc_dataviewer_utils.py:91-92 | removing the digit separators from digits and underscores leaves only digits, and changes nothing when there are none |
| Decimal.ParseDigits | nsidc_dataviewer_utils.py:91-92 | `int()` of a non-empty run of digits is its decimal value |
| Decimal.ParseShow | nsidc_dataviewer_utils.py:91-92 | `int(str(n)) == n` |
| Decimal.ParseZFill | nsidc_dataviewer_utils.py:91-92 | `int(str(n).zfill(w)) == n` for `n < 10^w` |
| Decimal.ParseRightJustified | nsidc_dataviewer_utils.py:91-92 | `int()` of a space-padded decimal numeral is its value |
| Decimal.ParseSeesStripped | nsidc_dataviewer_utils.py:91-92 | `int()` depends only on the text without the characters it skips around it |
| Decimal.SeparatorNotSkipped | nsidc_dataviewer_utils.py:91-92 | a field made of an ASCII separator 0x1C-0x1F and digits is a ValueError: `int()` does not skip those characters, although `str.isspace()` accepts them |
| Decimal.DropUnderscoresAppend | nsidc_dataviewer_utils.py:91-92 | removing the digit separators from two pieces of text joined is removing them from each piece and joining |
| Decimal.DropSeparator | nsidc_dataviewer_utils.py:91-92 | removing the digit separators from "_" leaves nothing |
| Decimal.ValueAppend | nsidc_dataviewer_utils.py:91-92 | the value of digits `s + t` is the value of `s` times `10^len(t)` plus the value of `t` |
| Decimal.ParseGroupedDigits | nsidc_dataviewer_utils.py:91-92 | `int()` of digits, one underscore and more digits is the value of the digits without the underscore |
| Decimal.ParseThousands | nsidc_dataviewer_utils.py:91-92 | `int(x + "_" + y)` for digit strings with `len(y) == 3` is `1000 * int(x) + int(y)` |
| Decimal.ParseGrouped | nsidc_dataviewer_utils.py:91-92 | `int(str(a) + "_" + str(b).zfill(3)) == 1000 * a + b` for `b < 1000`, as in `int("1_000") == 1000` |
| PathFormatter.FormUri | nsidc_dataviewer_utils.py:20-29 | formatting succeeds exactly when every field of the template has a value; otherwise the KeyError names the first field, left to right, that has none |
| PathFormatter.FormUriPieces | nsidc_dataviewer_utils.py:20-29 | a successful format is the template's pieces joined in order, each literal as written and each field replaced by its value (`yyyy` by the start year, `yymmdd` and `syymmdd` by the start token, `eyymmdd` by the end token) |
| PathFormatter.FormUriFirstPiece | nsidc_dataviewer_utils.py:20-29 | a successful format begins with the first token's piece, followed by the format of the rest of the template |
| PathFormatter.EndDateIgnored | nsidc_dataviewer_utils.py:21-29 | a template without `{eyymmdd}` formats the same with or without an end date |
| PathFormatter.EndFieldNeedsEndDate | nsidc_dataviewer_utils.py:26-29 | a template with `{eyymmdd}` fails without an end date |
| PathFormatter.MissingEndIsKeyError | nsidc_dataviewer_utils.py:26-29 | when every other field is known, that failure is `KeyError('eyymmdd')` |
| PathFormatter.FieldWidth | nsidc_dataviewer_utils.py:22-29 | for four-digit years, `yyyy` is substituted by 4 characters and every date token by 8 |
| PathFormatter.SamePathSameFields | nsidc_dataviewer_utils.py:20-29 | when every date's year is 1000 or later (four digits), two formats of one template that give the same path substituted the same value for every field |
| PathFormatter.FormUriDistinguishesDates | nsidc_dataviewer_utils.py:20-29 | when every date's year is 1000 or later (four digits), a template carrying the start token gives distinct start dates distinct paths |
| PathFormatter.ShortYearsCollide | nsidc_dataviewer_utils.py:17-29 | the four-digit condition is needed: `{yymmdd}{eyymmdd}` formats start 0500-01-01 with end 1234-05-06 and start 5000-10-11 with end 0234-05-06 to the same path, with different start tokens |
| PathFormatter.TwoFields | nsidc_dataviewer_utils.py:20-29 | a template of two known fields formats to their values joined |
| GridDecoder.Reshape | nsidc_dataviewer_utils.py:185 | `reshape((rows, cols))` succeeds exactly when there are `rows * cols` samples, and gives the grid whose (i, j) sample is sample `i * cols + j` |
| GridDecoder.ReshapeFlatten | nsidc_dataviewer_utils.py:185 | reshaping a grid's row-major samples gives the grid back |
| GridDecoder.FlattenReshape | nsidc_dataviewer_utils.py:185 | flattening a reshaped sequence gives the sequence back |
| GridDecoder.FlattenAt | nsidc_dataviewer_utils.py:185 | sample `i * cols + j` of a flattened grid is its (i, j) sample |
| GridDecoder.SeparateData | nsidc_dataviewer_utils.py:43-44 | the clamped grid has the same shape, every sample is at most the threshold and at most the original, a sample is unchanged exactly when it was already within the threshold, and a sample above the threshold becomes the threshold |
| GridDecoder.SeparateDataIdempotent | nsidc_dataviewer_utils.py:43-44 | clamping twice is clamping once |
| GridDecoder.SeparateDataWithin | nsidc_dataviewer_utils.py:43-44 | a grid already within the threshold is unchanged |
| GridDecoder.Contains | nsidc_dataviewer_utils.py:183 | `pattern in s` holds exactly when the pattern occurs at some position of s |
| GridDecoder.ContainsInMiddle | nsidc_dataviewer_utils.py:183 | a pattern found in a part of a path is found in the whole path |
| GridDecoder.Remainder | nsidc_dataviewer_utils.py:184-186 | `fromfile` after `seek(offset)` succeeds exactly when the offset is within the file; it then reads `len - offset` samples, sample k being byte `offset + k`. Past the end the count is negative, which is a ValueError |
| GridDecoder.DecodeFlatBinary | nsidc_dataviewer_utils.py:182-185 | the open fails exactly when the path is absent; the decode succeeds exactly when the file is the header followed by `rows * cols` bytes, and any other length, a file shorter than the header included, is a ValueError; a decoded result is a grid of that shape whose (i, j) sample is byte `offset + i * cols + j` |
| GridDecoder.DecodedSample | nsidc_dataviewer_utils.py:182-185 | sample (i, j) of a decoded grid is the file's byte at header offset plus `i * cols + j` |
| GridDecoder.DecodeWellFormed | nsidc_dataviewer_utils.py:182-185 | a file of a header and exactly `rows * cols` samples decodes to a grid whose row-major samples are those bytes |
| GridDecoder.AsciiDecode | nsidc_dataviewer_utils.py:91-92 | the UTF-8 decode of the field succeeds exactly on ASCII bytes, giving one character per byte |
| GridDecoder.AsciiRoundTrip | nsidc_dataviewer_utils.py:91-92 | decoding the bytes of an ASCII string gives the string back |
| GridDecoder.GetCurrentDatasetShape | nsidc_dataviewer_utils.py:88-93 | a missing file is FileNotFoundError; otherwise the probe succeeds exactly when both 4-byte fields parse, and the result is (field at `col_st`, field at `row_st`), the naming swapped as written |
| GridDecoder.HeaderFieldRoundTrip | nsidc_dataviewer_utils.py:91-92 | a zero-filled four-digit field parses back to its number |
| GridDecoder.ProbeRoundTrip | nsidc_dataviewer_utils.py:88-93 | a header carrying `rows` at `col_st` and `cols` at `row_st` probes as `(rows, cols)` |
| Renderer.CreatePlot | nsidc_dataviewer_utils.py:53-64 | the frame keeps the colormap and gets the title for the date and prefix; the grid keeps its shape, is unchanged when the separate byte is 0, and is clamped sample by sample otherwise |
| Renderer.TitleShape | nsidc_dataviewer_utils.py:54-57 | the title is `str(date)`, after the prefix and one space when a prefix is given |
| Renderer.TitleDistinguishes | nsidc_dataviewer_utils.py:54-57 | equal titles mean the same date and the same prefix |
| Renderer.Fallback | nsidc_dataviewer_utils.py:194-209 | an `except` clause keeps the cache and prints exactly the fault's notice for the date; it returns None exactly when a grid is cached, after drawing that grid, clamped, under the fault's title and the date; with nothing cached the NameError escapes and nothing is drawn |
| Renderer.Succeed | nsidc_dataviewer_utils.py:192-211 | a finished `try` returns `[image]`, the image being the only frame drawn; it keeps the cache and prints the progress line exactly when verbose, and never an error line |
| Renderer.ImageStep | nsidc_dataviewer_utils.py:174-211 | the image branch never changes the cache and reports exactly its fallbacks; a returned frame is titled with the bare date, after the progress line only when verbose; the decoder error `render` does not catch escapes exactly when `imread` raises it |
| Renderer.BinaryStep | nsidc_dataviewer_utils.py:182-211 | the binary branch changes the cache only on a returned frame, reports exactly its fallbacks, and titles a returned frame with the bare date, after the progress line only when verbose |
| Renderer.RenderStep | nsidc_dataviewer_utils.py:162-211 | an escaping exception draws nothing and keeps the cache; a returned frame is the one frame drawn; None comes only for a frame whose date and path resolved, after drawing the cached grid, clamped, under "FILE MISSING FOR" or "CORRUPTED FILE FOR" and that date, and printing only that fault's notice; a returned frame is preceded by the progress line exactly when verbose; only a binary success changes the cache |
| Renderer.ResolveFailureEscapes | nsidc_dataviewer_utils.py:163-171 | an index, overflow or template error escapes before anything is read, drawn, cached or printed |
| Renderer.ResolveDateAndPath | nsidc_dataviewer_utils.py:163-171 | the frame's date is `dates_array[index]`; in range mode the path is formatted with the end date `start + 6`, otherwise without an end date; an index outside the array is an IndexError |
| Renderer.BinarySuccess | nsidc_dataviewer_utils.py:182-193 | a decoded binary frame is drawn, clamped, under the bare date; its raw grid becomes the cache; the progress line is printed only when verbose |
| Renderer.ReturnedFrameTitle | nsidc_dataviewer_utils.py:176-190 | a returned frame, in either mode, is titled with the frame's start date |
| Renderer.MissingFile | nsidc_dataviewer_utils.py:194-201 | a missing file prints "No file for" the date and draws the cached grid, clamped, under "FILE MISSING FOR <date>", returning None; with nothing cached the NameError escapes after the notice |
| Renderer.CorruptBinary | nsidc_dataviewer_utils.py:202-209 | a file of the wrong length prints "Corrupt file for" the date and draws the cached grid, clamped, under "CORRUPTED FILE FOR <date>", returning None; with nothing cached the NameError escapes |
| Renderer.CorruptImage | nsidc_dataviewer_utils.py:174-209 | a PNG that `imread` rejects with ValueError prints "Corrupt file for" the date and keeps the cache; it draws the cached grid, clamped, under "CORRUPTED FILE FOR <date>" and returns None, and with nothing cached the NameError escapes and nothing is drawn |
| Renderer.UnreadableImageEscapes | nsidc_dataviewer_utils.py:174-209 | a decoder error other than FileNotFoundError or ValueError escapes exactly for an existing PNG that `imread` cannot read, with nothing drawn, cached or printed |
| Renderer.ImageSuccess | nsidc_dataviewer_utils.py:174-211 | in range mode a decoded PNG is drawn, clamped, under the bare date and returned as the only frame drawn; the cache is kept and the progress line is printed exactly when verbose |
| Renderer.ImageModeKeepsCache | nsidc_dataviewer_utils.py:174-180 | image mode never writes the cache; a decoded image is drawn in range mode, and outside it the unbound `start_date` error escapes |
| Renderer.NoticeOnlyOnFailure | nsidc_dataviewer_utils.py:192-209 | an error line is printed exactly on the two `except` paths, and then it is the only line printed |
| Renderer.NoticeIsErrorLine | nsidc_dataviewer_utils.py:195-203 | both `except` notices are error lines |
| Renderer.ProgressIsNotErrorLine | nsidc_dataviewer_utils.py:193 | the progress line is not an error line |
| Renderer.FallbackShowsLastGoodGrid | nsidc_dataviewer_utils.py:186-209 | after a binary success, a failing frame draws that success's raw grid, clamped, and returns None |
| Renderer.MissingMiddleFrame | nsidc_dataviewer_utils.py:162-211 | of three daily frames whose middle file is missing, the first and third return their own grids, clamped, under their dates; the second shows the first grid under "FILE MISSING FOR <second date>"; only the second prints an error line, verbose or not |
| Renderer.LeadingLiteralOffset | nsidc_dataviewer_utils.py:183-184 | a path whose leading literal contains "0051" skips 300 bytes, whatever the dates |
| Renderer.Nsidc0051Offset | nsidc_dataviewer_utils.py:96-103 | every path of the four "0051" templates formats and skips the 300-byte header |
| Renderer.DailyTemplateOffset | nsidc_dataviewer_utils.py:183-184 | a daily template whose directory contains "0051" always formats and skips the header |
| Renderer.StartTokenOffset | nsidc_dataviewer_utils.py:183-184 | a path whose start token contains "0051" skips the header too |
| Renderer.DateTokenTriggersOffset | nsidc_dataviewer_utils.py:119-124 | the weekly "0046" path for start date 2005-10-01 skips 300 bytes, because its token "20051001" contains "0051" |
| Renderer.Session.constructor | nsidc_dataviewer_utils.py:138-147 | the settings start at the `const` class defaults, with nothing cached, drawn or printed |
| Renderer.Session.SetConstants | nsidc_dataviewer_utils.py:150-159 | every setting is replaced by its argument; the cache, frames and log are kept |
| Renderer.Session.SetLastDataset | nsidc_dataviewer_utils.py:46-48 | the cache holds the new grid and nothing else changes |
| Renderer.Session.GetLastDataset | nsidc_dataviewer_utils.py:50-51 | the grid last stored, or None where Python raises NameError |
| Renderer.Session.Plot | nsidc_dataviewer_utils.py:53-64 | one frame, `CreatePlot` of the session's colormap and separate byte, is appended to the plot and nothing else changes |
| Renderer.Session.HandleFault | nsidc_dataviewer_utils.py:194-209 | the outcome, cache, frames and lines are those of `Fallback` |
| Renderer.Session.ResolveFrame | nsidc_dataviewer_utils.py:163-171 | the date and path, or the escaping error, are those of `Resolve` |
| Renderer.Session.Finish | nsidc_dataviewer_utils.py:192-211 | returns `[image]`, after the progress line when verbose |
| Renderer.Session.RenderImage | nsidc_dataviewer_utils.py:174-180 | the outcome, cache, frames and lines are those of `ImageStep` |
| Renderer.Session.RenderBinary | nsidc_dataviewer_utils.py:182-191 | the outcome, cache, frames and lines are those of `BinaryStep` |
| Renderer.Session.Render | nsidc_dataviewer_utils.py:162-211 | the outcome, cache, frames drawn and lines printed are those of `RenderStep` on the settings and cache before the call, and the settings are unchanged |

## Left out

- PathFormatter.FormUri: only plain `{name}` replacement fields are modelled. Format specifications, conversions, the `{{` and `}}` escapes, and positional fields such as `{0}` (an IndexError in `str.format` with keyword arguments only) are not.
- Image decoding by extension: matplotlib chooses the decoder from the file name's extension; the model's `imread` is a function of the file's bytes only. An RGB or RGBA image, a 3-D array in matplotlib, is shown as a 2-D grid.
- Plotting: matplotlib (`plot.title`, `plot.imshow`) is a recorded list of frames (title, grid, colormap); the returned image handle is the frame itself. The `PLOT` handle is not stored.
- Image decoding: `mpimg.imread` is a function parameter from file bytes to a grid, a ValueError, or any other error. A file missing at `imread` is a FileNotFoundError, as for binary files. PNG samples are modelled as integers, not floats.
- File I/O: `open`, `seek`, `np.fromfile` and `read` work on a map from path to bytes. Errors of `open` other than a missing file, such as permissions or directories, are not modelled.
- Printing: `print` is an appended log of lines.
- Catalogue glue: `COLORMAPS`, `get_colormaps`, `pretty_print_colormaps`, `get_sources`, `pretty_print_sources` and the `get_formats` functions (lines 6 and 66-86, and the dictionaries of lines 105-117 and 126-136) only list or print names. The templates of lines 96-103 and 119-124 are modelled as data.
- Renderer.Session.SetConstants: `ds` is a pair of naturals. NumPy's `-1` dimension inference in `reshape` is not modelled. Every setting is a required parameter; the keyword-argument call shape is not modelled, so a call missing a keyword, which raises KeyError after the settings before it are already assigned, has no counterpart.
- GridDecoder.SeparateData: samples are unbounded integers and the clamp is the mathematical minimum. NumPy's dtype promotion of `np.minimum` for thresholds outside 0..255 is not modelled.
- Decimal.ParseInt: `int()` on text covers the whitespace it skips (`str.isspace()` without 0x1C-0x1F), an optional sign, ASCII digits and single underscores between digits. Non-ASCII decimal digits, which `int()` also accepts, are not modelled.
- GridDecoder.AsciiDecode: a header field holding a non-ASCII byte is treated as a decode failure. Python decodes valid multi-byte UTF-8 and `int()` may then accept the field, as in `b"\xc2\xa012"` (a no-break space, then 12) or a field of Arabic-Indic digits; the model rejects such fields.
- GridDecoder.GetCurrentDatasetShape: inherits that gap; a header field with non-ASCII UTF-8 that Python would parse is a ValueError in the model.
- Decimal.ZFill: only `zfill` of unsigned numerals is modelled; its handling of a leading sign does not arise in `form_smashed_date`.
- Dates: a date is a `datetime.date` ordinal. `str` of a full `datetime` with a time part is not modelled.
- Renderer.Session.Render: the animation driver, concurrency and any other caller are not part of this model. The range-mode example for 2010-01-01 is covered by the general `ResolveDateAndPath` and `ReturnedFrameTitle` rather than by a lemma on those literal dates.

=== FILE: date_sequencer.dfy ===
/**
 * The Date Sequencer: the frame dates of a session (`single_daterange`,
 * `week_daterange`, `generate_dates_array`) and the lookup of one frame's
 * date (`get_current_datetime`).
 */
module DateSequencer {
  import opened Wrappers
  import opened Dates

  /** `int(x / y)` for Python ints and `y > 0`: true division, then
      truncation toward zero, so `q * y` is the multiple of `y` nearest to
      `x` on the side of 0. */
  function TruncDiv(x: int, y: int): (q: int)
    requires y > 0
    ensures x >= 0 ==> 0 <= q * y <= x < q * y + y
    ensures x < 0 ==> q * y - y < x <= q * y <= 0
  {
    if x >= 0 then
      DivBounds(x, y);
      x / y
    else
      DivBounds(-x, y);
      assert -((-x) / y) * y == -(((-x) / y) * y);
      -((-x) / y)
  }

  lemma DivBounds(x: nat, y: int)
    requires y > 0
    ensures 0 <= (x / y) * y <= x < (x / y) * y + y
  {
    assert x == y * (x / y) + x % y;
    assert (x / y) * y == y * (x / y);
  }

  /** How many dates `single_daterange` yields: `range((end - start).days)`. */
  function DailyCount(start: Date, end: Date): nat
  {
    if end - start > 0 then end - start else 0
  }

  /** How many dates `week_daterange` yields: `range(int((end - start).days / 7))`. */
  function WeeklyCount(start: Date, end: Date): nat
  {
    var k := TruncDiv(end - start, 7);
    if k > 0 then k else 0
  }

  /** `list(single_daterange((start, end)))`: `start + n` days for each `n` in `range(days)`. */
  function SingleDaterange(start: Date, end: Date): (r: seq<Date>)
    ensures |r| == DailyCount(start, end)
  {
    seq(DailyCount(start, end), n requires 0 <= n < DailyCount(start, end) => start + n)
  }

  /** `list(week_daterange((start, end)))`: `start + 7n` days for each `n` in `range(weeks)`. */
  function WeekDaterange(start: Date, end: Date): (r: seq<Date>)
    ensures |r| == WeeklyCount(start, end)
  {
    var k := WeeklyCount(start, end);
    assert k > 0 ==> start + 7 * (k - 1) < end;
    seq(k, n requires 0 <= n < k => start + 7 * n)
  }

  // ---------------------------------------------------------------------
  // What the two sequences contain

  /** Daily frames are `max(0, (end - start).days)` dates, `start + n` for the
      n-th one. */
  lemma DailyFrames(start: Date, end: Date)
    ensures |SingleDaterange(start, end)| == if end > start then end - start else 0
    ensures forall n :: 0 <= n < |SingleDaterange(start, end)| ==> SingleDaterange(start, end)[n] == start + n
  {
  }

  /** Daily frames are exactly the days of the half-open interval [start, end). */
  lemma DailyMembership(start: Date, end: Date, d: Date)
    ensures d in SingleDaterange(start, end) <==> start <= d < end
  {
    var r := SingleDaterange(start, end);
    if start <= d < end {
      assert r[d - start] == d;
    }
  }

  /** Consecutive daily frames are one day apart, so they strictly increase. */
  lemma DailyStep(start: Date, end: Date)
    ensures var r := SingleDaterange(start, end);
      forall i :: 0 <= i < |r| - 1 ==> r[i + 1] == r[i] + 1
  {
  }

  /** The end date is never a daily frame. */
  lemma DailyExcludesEnd(start: Date, end: Date)
    ensures end !in SingleDaterange(start, end)
  {
    DailyMembership(start, end, end);
  }

  /** Weekly frames are `max(0, trunc((end - start).days / 7))` dates,
      `start + 7n` for the n-th one. */
  lemma WeeklyFrames(start: Date, end: Date)
    ensures |WeekDaterange(start, end)| == if end - start >= 7 then (end - start) / 7 else 0
    ensures forall n :: 0 <= n < |WeekDaterange(start, end)| ==> WeekDaterange(start, end)[n] == start + 7 * n
  {
    if end - start < 0 {
      assert TruncDiv(end - start, 7) <= 0;
    }
  }

  /** A weekly frame is a date a whole number of weeks after `start` whose
      seven-day window still ends before `end`, and every such date is one. */
  lemma WeeklyMembership(start: Date, end: Date, d: Date)
    ensures d in WeekDaterange(start, end) <==> start <= d && (d - start) % 7 == 0 && d + 7 <= end
  {
    WeeklyFrames(start, end);
    var r := WeekDaterange(start, end);
    if d in r {
      var n :| 0 <= n < |r| && r[n] == d;
      assert d - start == 7 * n;
    }
    if start <= d && (d - start) % 7 == 0 && d + 7 <= end {
      var n := (d - start) / 7;
      assert d == start + 7 * n;
      assert n < (end - start) / 7;
      assert r[n] == d;
    }
  }

  /** Consecutive weekly frames are seven days apart. */
  lemma WeeklyStep(start: Date, end: Date)
    ensures var r := WeekDaterange(start, end);
      forall i :: 0 <= i < |r| - 1 ==> r[i + 1] == r[i] + 7
  {
  }

  /** A span that is not positive yields no frames in either mode. */
  lemma EmptyWhenNotAfter(start: Date, end: Date)
    requires end <= start
    ensures SingleDaterange(start, end) == [] && WeekDaterange(start, end) == []
  {
    assert TruncDiv(end - start, 7) <= 0;
  }

  // ---------------------------------------------------------------------
  // The dates array of a session and the date of one frame

  /** `generate_dates_array((start, end), week=...)`: append each generated
      date to a list; `week` stands for the presence of the keyword. */
  method GenerateDatesArray(start: Date, end: Date, week: bool) returns (datesArray: seq<Date>)
    ensures datesArray == if week then WeekDaterange(start, end) else SingleDaterange(start, end)
  {
    datesArray := [];
    if week {
      var weeks := WeeklyCount(start, end);
      var n := 0;
      while n < weeks
        invariant 0 <= n <= weeks
        invariant datesArray == WeekDaterange(start, end)[..n]
      {
        assert WeekDaterange(start, end)[n] == start + 7 * n;
        datesArray := datesArray + [start + 7 * n];
        n := n + 1;
      }
    } else {
      var days := DailyCount(start, end);
      var n := 0;
      while n < days
        invariant 0 <= n <= days
        invariant datesArray == SingleDaterange(start, end)[..n]
      {
        datesArray := datesArray + [start + n];
        n := n + 1;
      }
    }
  }

  /** `get_current_datetime(dates_array, index)`, i.e. `dates_array[index]`
      with Python's negative indices; `None` where Python raises IndexError. */
  function GetCurrentDatetime(datesArray: seq<Date>, index: int): (r: Option<Date>)
    ensures r.Some? <==> -|datesArray| <= index < |datesArray|
    ensures r.Some? ==> r.value == datesArray[index % |datesArray|]
  {
    if 0 <= index < |datesArray| then Some(datesArray[index])
    else if -|datesArray| <= index < 0 then Some(datesArray[|datesArray| + index])
    else None
  }
}

=== FILE: dates.dfy ===
/**
 * Calendar dates as Python's `datetime.date` holds them: a proleptic
 * Gregorian day ordinal (0001-01-01 is day 1, 9999-12-31 is the last), so
 * adding a `timedelta` of whole days is integer addition. The
 * (year, month, day) view is Python's own conversion, proved here to be the
 * inverse of the ordinal a civil date denotes.
 */
module Dates {
  import opened Wrappers
  import opened Decimal

  /** The ordinal of 9999-12-31, `date.max.toordinal()`. */
  const MaxOrdinal: int := 3652059

  type Date = n: int | 1 <= n <= MaxOrdinal witness 1

  datatype Civil = Civil(year: int, month: int, day: int)

  const DaysInMonthTable: seq<int> := [31, 28, 31, 30, 31, 30, 31, 31, 30, 31, 30, 31]
  const DaysBeforeMonthTable: seq<int> := [0, 31, 59, 90, 120, 151, 181, 212, 243, 273, 304, 334]

  predicate IsLeap(y: int)
  {
    y % 4 == 0 && (y % 100 != 0 || y % 400 == 0)
  }

  function DaysInYear(y: int): int
  {
    if IsLeap(y) then 366 else 365
  }

  function DaysInMonth(y: int, m: int): int
    requires 1 <= m <= 12
  {
    DaysInMonthTable[m - 1] + (if m == 2 && IsLeap(y) then 1 else 0)
  }

  function DaysBeforeMonth(y: int, m: int): int
    requires 1 <= m <= 12
  {
    DaysBeforeMonthTable[m - 1] + (if m > 2 && IsLeap(y) then 1 else 0)
  }

  /** Days in the years before `y`. */
  function DaysBeforeYear(y: int): int
    requires y >= 1
  {
    var p := y - 1;
    p * 365 + p / 4 - p / 100 + p / 400
  }

  predicate ValidCivil(c: Civil)
  {
    1 <= c.year <= 9999 && 1 <= c.month <= 12 && 1 <= c.day <= DaysInMonth(c.year, c.month)
  }

  /** `date(y, m, d).toordinal()`. */
  function ToOrdinal(c: Civil): int
    requires ValidCivil(c)
  {
    DaysBeforeYear(c.year) + DaysBeforeMonth(c.year, c.month) + c.day
  }

  /** `date.fromordinal(n)`: Python's conversion through the 400-, 100-, 4-
      and 1-year cycles, then a month estimate corrected by at most one. */
  function FromOrdinal(n: Date): Civil
  {
    var n0 := n - 1;
    var n400 := n0 / 146097;
    var r400 := n0 % 146097;
    var n100 := r400 / 36524;
    var r100 := r400 % 36524;
    var n4 := r100 / 1461;
    var r4 := r100 % 1461;
    var n1 := r4 / 365;
    var r1 := r4 % 365;
    FromCycles(n400, n100, n4, n1, r1)
  }

  /** The date `r` days into year `n1` of 4-year cycle `n4` of century `n100`
      of 400-year cycle `n400`. */
  function FromCycles(n400: int, n100: int, n4: int, n1: int, r: int): Civil
    requires 0 <= r < 365
  {
    var year := n400 * 400 + 1 + n100 * 100 + n4 * 4 + n1;
    if n1 == 4 || n100 == 4 then
      Civil(year - 1, 12, 31)
    else
      var leap := n1 == 3 && (n4 != 24 || n100 == 3);
      MonthDay(year, r, leap)
  }

  /** The month and day of day `r` (counted from 0) of a year. */
  function MonthDay(year: int, r: int, leap: bool): Civil
    requires 0 <= r < 365
  {
    var month := (r + 50) / 32;
    var preceding := DaysBeforeMonthTable[month - 1] + (if month > 2 && leap then 1 else 0);
    if preceding > r then
      var m := month - 1;
      var p := preceding - (DaysInMonthTable[m - 1] + (if m == 2 && leap then 1 else 0));
      Civil(year, m, r - p + 1)
    else
      Civil(year, month, r - preceding + 1)
  }

  function Year(d: Date): (y: int)
    ensures 1 <= y <= 9999
  {
    FromOrdinalInverse(d);
    FromOrdinal(d).year
  }

  function Month(d: Date): (m: int)
    ensures 1 <= m <= 12
  {
    FromOrdinalInverse(d);
    FromOrdinal(d).month
  }

  function Day(d: Date): (dd: int)
    ensures 1 <= dd <= 31
  {
    FromOrdinalInverse(d);
    FromOrdinal(d).day
  }

  // ---------------------------------------------------------------------
  // The civil view is a bijection between ordinals and valid dates

  /** `DaysBeforeMonth` steps by the length of each month. */
  lemma DaysBeforeMonthStep(y: int, m: int)
    requires 1 <= m < 12
    ensures DaysBeforeMonth(y, m + 1) == DaysBeforeMonth(y, m) + DaysInMonth(y, m)
  {
  }

  lemma DaysBeforeMonthLast(y: int)
    ensures DaysBeforeMonth(y, 12) + DaysInMonth(y, 12) == DaysInYear(y)
  {
  }

  /** Later months start later: every day of month `a` comes before month `b`. */
  lemma {:induction false} DaysBeforeMonthMonotone(y: int, a: int, b: int)
    requires 1 <= a < b <= 12
    ensures DaysBeforeMonth(y, a) + DaysInMonth(y, a) <= DaysBeforeMonth(y, b)
    decreases b - a
  {
    DaysBeforeMonthStep(y, a);
    if a + 1 < b {
      DaysBeforeMonthMonotone(y, a + 1, b);
    }
  }

  /** `DaysBeforeYear` steps by the length of each year. */
  lemma DaysBeforeYearStep(y: int)
    requires y >= 1
    ensures DaysBeforeYear(y + 1) == DaysBeforeYear(y) + DaysInYear(y)
  {
    var p := y - 1;
    assert (p + 1) / 4 == p / 4 + (if y % 4 == 0 then 1 else 0);
    assert (p + 1) / 100 == p / 100 + (if y % 100 == 0 then 1 else 0);
    assert (p + 1) / 400 == p / 400 + (if y % 400 == 0 then 1 else 0);
  }

  lemma {:induction false} DaysBeforeYearMonotone(a: int, b: int)
    requires 1 <= a < b
    ensures DaysBeforeYear(a) + DaysInYear(a) <= DaysBeforeYear(b)
    decreases b - a
  {
    DaysBeforeYearStep(a);
    if a + 1 < b {
      DaysBeforeYearMonotone(a + 1, b);
    }
  }

  /** A valid date's ordinal lies within its year. */
  lemma OrdinalWithinYear(c: Civil)
    requires ValidCivil(c)
    ensures DaysBeforeYear(c.year) < ToOrdinal(c) <= DaysBeforeYear(c.year) + DaysInYear(c.year)
  {
    if c.month < 12 {
      DaysBeforeMonthMonotone(c.year, c.month, 12);
    }
    DaysBeforeMonthLast(c.year);
  }

  /** Different valid dates have different ordinals. */
  lemma ToOrdinalInjective(c1: Civil, c2: Civil)
    requires ValidCivil(c1) && ValidCivil(c2)
    ensures ToOrdinal(c1) == ToOrdinal(c2) ==> c1 == c2
  {
    OrdinalWithinYear(c1);
    OrdinalWithinYear(c2);
    if c1.year < c2.year {
      DaysBeforeYearMonotone(c1.year, c2.year);
    } else if c2.year < c1.year {
      DaysBeforeYearMonotone(c2.year, c1.year);
    } else if c1.month < c2.month {
      DaysBeforeMonthMonotone(c1.year, c1.month, c2.month);
    } else if c2.month < c1.month {
      DaysBeforeMonthMonotone(c1.year, c2.month, c1.month);
    }
  }

  /** Python's month estimate and correction find the month and day of day
      `r` of a year whose leap-ness is `leap`. */
  lemma MonthDayCorrect(year: int, r: int, leap: bool)
    requires 0 <= r < 365
    requires IsLeap(year) == leap
    ensures var c := MonthDay(year, r, leap);
      c.year == year && 1 <= c.month <= 12 && 1 <= c.day <= DaysInMonth(year, c.month)
      && DaysBeforeMonth(year, c.month) + c.day == r + 1
  {
    if leap && r < 182 {
      MonthDayLeapFirstHalf(year, r);
    } else if leap {
      MonthDayLeapSecondHalf(year, r);
    } else if r < 181 {
      MonthDayCommonFirstHalf(year, r);
    } else {
      MonthDayCommonSecondHalf(year, r);
    }
  }

  lemma MonthDayLeapFirstHalf(year: int, r: int)
    requires 0 <= r < 182 && IsLeap(year)
    ensures var c := MonthDay(year, r, true);
      c.year == year && 1 <= c.month <= 12 && 1 <= c.day <= DaysInMonth(year, c.month)
      && DaysBeforeMonth(year, c.month) + c.day == r + 1
  {
    if r < 31 {} else if r < 60 {} else if r < 91 {} else if r < 121 {} else if r < 152 {} else {}
  }

  lemma MonthDayLeapSecondHalf(year: int, r: int)
    requires 182 <= r < 365 && IsLeap(year)
    ensures var c := MonthDay(year, r, true);
      c.year == year && 1 <= c.month <= 12 && 1 <= c.day <= DaysInMonth(year, c.month)
      && DaysBeforeMonth(year, c.month) + c.day == r + 1
  {
    if r < 213 {} else if r < 244 {} else if r < 274 {} else if r < 305 {} else if r < 335 {} else {}
  }

  lemma MonthDayCommonFirstHalf(year: int, r: int)
    requires 0 <= r < 181 && !IsLeap(year)
    ensures var c := MonthDay(year, r, false);
      c.year == year && 1 <= c.month <= 12 && 1 <= c.day <= DaysInMonth(year, c.month)
      && DaysBeforeMonth(year, c.month) + c.day == r + 1
  {
    if r < 31 {} else if r < 59 {} else if r < 90 {} else if r < 120 {} else if r < 151 {} else {}
  }

  lemma MonthDayCommonSecondHalf(year: int, r: int)
    requires 181 <= r < 365 && !IsLeap(year)
    ensures var c := MonthDay(year, r, false);
      c.year == year && 1 <= c.month <= 12 && 1 <= c.day <= DaysInMonth(year, c.month)
      && DaysBeforeMonth(year, c.month) + c.day == r + 1
  {
    if r < 212 {} else if r < 243 {} else if r < 273 {} else if r < 304 {} else if r < 334 {} else {}
  }

  /** The cycle counts of an ordinal add up to the days before its year. */
  lemma CycleDays(a: int, b: int, c: int, d: int)
    requires a >= 0 && 0 <= b <= 3 && 0 <= c <= 24 && 0 <= d <= 3
    ensures DaysBeforeYear(400 * a + 100 * b + 4 * c + d + 1) == 146097 * a + 36524 * b + 1461 * c + 365 * d
  {
    var p := 400 * a + 100 * b + 4 * c + d;
    DivBy(p, 4, 100 * a + 25 * b + c, d);
    DivBy(p, 100, 4 * a + b, 4 * c + d);
    DivBy(p, 400, a, 100 * b + 4 * c + d);
  }

  /** Which year of the cycles is a leap year. */
  lemma CycleLeap(a: int, b: int, c: int, d: int)
    requires a >= 0 && 0 <= b <= 3 && 0 <= c <= 24 && 0 <= d <= 3
    ensures IsLeap(400 * a + 100 * b + 4 * c + d + 1) <==> d == 3 && (c != 24 || b == 3)
  {
    var y := 400 * a + 100 * b + 4 * c + d + 1;
    ModBy(y, 4, 100 * a + 25 * b + c, d + 1);
    ModBy(y, 100, 4 * a + b, 4 * c + d + 1);
    ModBy(y, 400, a, 100 * b + 4 * c + d + 1);
  }

  /** Division is determined by quotient and remainder. */
  lemma DivBy(p: int, k: int, q: int, r: int)
    requires k > 0 && p == k * q + r && 0 <= r < k
    ensures p / k == q && p % k == r
  {
    var q', r' := p / k, p % k;
    assert k * (q - q') == r' - r;
    if q > q' {
      MulAtLeast(k, q - q');
    } else if q < q' {
      MulAtLeast(k, q' - q);
    }
  }

  lemma MulAtLeast(k: int, x: int)
    requires k > 0 && x >= 1
    ensures k * x >= k
  {
  }

  /** `y % k` for `y == k * q + r` with `0 < r <= k`. */
  lemma ModBy(y: int, k: int, q: int, r: int)
    requires k > 0 && y == k * q + r && 0 < r <= k
    ensures y % k == if r == k then 0 else r
  {
    if r == k {
      DivBy(y, k, q + 1, 0);
    } else {
      DivBy(y, k, q, r);
    }
  }

  /** `date.fromordinal` yields a valid date whose ordinal is `n`. */
  lemma FromOrdinalInverse(n: Date)
    ensures ValidCivil(FromOrdinal(n)) && ToOrdinal(FromOrdinal(n)) == n
  {
    var n400, n100, n4, n1, r1 := CycleSplit(n);
    FromCyclesInverse(n, n400, n100, n4, n1, r1);
  }

  /** The cycle counts `fromordinal` computes, and the bounds they keep. */
  lemma CycleSplit(n: Date) returns (n400: int, n100: int, n4: int, n1: int, r1: int)
    ensures n400 >= 0 && 0 <= n100 <= 4 && 0 <= n4 <= 24 && 0 <= n1 <= 4 && 0 <= r1 < 365
    ensures n100 == 4 ==> n4 == 0 && n1 == 0 && r1 == 0
    ensures n1 == 4 ==> r1 == 0 && n4 <= 23
    ensures n == 146097 * n400 + 36524 * n100 + 1461 * n4 + 365 * n1 + r1 + 1
    ensures FromOrdinal(n) == FromCycles(n400, n100, n4, n1, r1)
  {
    var n0 := n - 1;
    n400 := n0 / 146097;
    var r400 := n0 % 146097;
    n100 := r400 / 36524;
    var r100 := r400 % 36524;
    n4 := r100 / 1461;
    var r4 := r100 % 1461;
    n1 := r4 / 365;
    r1 := r4 % 365;
  }

  lemma FromCyclesInverse(n: Date, n400: int, n100: int, n4: int, n1: int, r1: int)
    requires n400 >= 0 && 0 <= n100 <= 4 && 0 <= n4 <= 24 && 0 <= n1 <= 4 && 0 <= r1 < 365
    requires n100 == 4 ==> n4 == 0 && n1 == 0 && r1 == 0
    requires n1 == 4 ==> r1 == 0 && n4 <= 23
    requires n == 146097 * n400 + 36524 * n100 + 1461 * n4 + 365 * n1 + r1 + 1
    ensures ValidCivil(FromCycles(n400, n100, n4, n1, r1))
    ensures ToOrdinal(FromCycles(n400, n100, n4, n1, r1)) == n
  {
    if n100 == 4 {
      YearEnd(n, n400, 3, 24);
      assert FromCycles(n400, n100, n4, n1, r1) == Civil(400 * n400 + 300 + 96 + 4, 12, 31);
    } else if n1 == 4 {
      YearEnd(n, n400, n100, n4);
      assert FromCycles(n400, n100, n4, n1, r1) == Civil(400 * n400 + 100 * n100 + 4 * n4 + 4, 12, 31);
    } else {
      WithinYear(n, n400, n100, n4, n1, r1);
    }
  }

  /** The last day of a 4-year or 400-year cycle is December 31 of a leap year. */
  lemma YearEnd(n: Date, a: int, b: int, k: int)
    requires a >= 0 && 0 <= b <= 3 && 0 <= k <= 24 && (k != 24 || b == 3)
    requires n == 146097 * a + 36524 * b + 1461 * k + 1461
    ensures var c := Civil(400 * a + 100 * b + 4 * k + 4, 12, 31);
      ValidCivil(c) && ToOrdinal(c) == n
  {
    CycleDays(a, b, k, 3);
    CycleLeap(a, b, k, 3);
    var c := Civil(400 * a + 100 * b + 4 * k + 4, 12, 31);
    YearBound(n, c.year);
  }

  /** A day that is not the last of a cycle: its month and day come from `MonthDay`. */
  lemma WithinYear(n: Date, a: int, b: int, k: int, d: int, r: int)
    requires a >= 0 && 0 <= b <= 3 && 0 <= k <= 24 && 0 <= d <= 3 && 0 <= r < 365
    requires n == 146097 * a + 36524 * b + 1461 * k + 365 * d + r + 1
    ensures ValidCivil(FromCycles(a, b, k, d, r)) && ToOrdinal(FromCycles(a, b, k, d, r)) == n
  {
    var year := 400 * a + 100 * b + 4 * k + d + 1;
    var leap := d == 3 && (k != 24 || b == 3);
    assert FromCycles(a, b, k, d, r) == MonthDay(year, r, leap);
    CycleDays(a, b, k, d);
    CycleLeap(a, b, k, d);
    YearBound(n, year);
    MonthDayCorrect(year, r, leap);
  }

  /** A year whose first day is before the last ordinal is at most 9999. */
  lemma YearBound(n: Date, y: int)
    requires y >= 1 && DaysBeforeYear(y) < n
    ensures y <= 9999
  {
    assert DaysBeforeYear(10000) == MaxOrdinal;
    if y > 9999 {
      DaysBeforeYearMonotone(10000, y);
    }
  }

  /** A valid date's ordinal is a `Date`, and `fromordinal` gives the date back. */
  lemma ToOrdinalInverse(c: Civil)
    requires ValidCivil(c)
    ensures 1 <= ToOrdinal(c) <= MaxOrdinal
    ensures FromOrdinal(ToOrdinal(c)) == c
  {
    OrdinalWithinYear(c);
    if c.year < 9999 {
      DaysBeforeYearMonotone(c.year, 9999);
    }
    assert DaysBeforeYear(9999) + DaysInYear(9999) == MaxOrdinal;
    FromOrdinalInverse(ToOrdinal(c));
    ToOrdinalInjective(FromOrdinal(ToOrdinal(c)), c);
  }

  /** Different ordinals give different calendar dates. */
  lemma FromOrdinalInjective(a: Date, b: Date)
    ensures FromOrdinal(a) == FromOrdinal(b) ==> a == b
  {
    FromOrdinalInverse(a);
    FromOrdinalInverse(b);
  }

  // ---------------------------------------------------------------------
  // Day arithmetic and the two textual forms of a date

  /** `d + timedelta(days=k)`: `None` where Python raises OverflowError. */
  function AddDays(d: Date, k: int): (r: Option<Date>)
    ensures r.Some? <==> 1 <= d + k <= MaxOrdinal
    ensures r.Some? ==> r.value - d == k
  {
    if 1 <= d + k <= MaxOrdinal then Some(d + k) else None
  }

  /** `str(d)`, i.e. `d.isoformat()`: "YYYY-MM-DD" with the year padded to four digits. */
  function IsoFormat(d: Date): string
  {
    ZFill(Show(Year(d)), 4) + "-" + ZFill(Show(Month(d)), 2) + "-" + ZFill(Show(Day(d)), 2)
  }

  /** `form_smashed_date(d)`: `str(year)` unpadded, then month and day zero-filled to 2. */
  function SmashedDate(d: Date): string
  {
    Show(Year(d)) + ZFill(Show(Month(d)), 2) + ZFill(Show(Day(d)), 2)
  }

  lemma CivilFieldsFit(d: Date)
    ensures 1 <= Year(d) <= 9999 && 1 <= Month(d) <= 12 && 1 <= Day(d) <= 31
  {
    FromOrdinalInverse(d);
  }

  /** The smashed token is the year's digits followed by exactly four more
      digits, for month and day. */
  lemma SmashedDateFields(d: Date)
    ensures var s := SmashedDate(d);
      && |s| == |Show(Year(d))| + 4
      && AllDigits(s)
      && s[..|s| - 4] == Show(Year(d))
  {
    CivilFieldsFit(d);
    ZFillShow(Month(d), 2);
    ZFillShow(Day(d), 2);
    SmashedParts(Show(Year(d)), ZFill(Show(Month(d)), 2), ZFill(Show(Day(d)), 2));
    var s := SmashedDate(d);
    assert s[..|s| - 4] == Show(Year(d));
  }

  /** The token is 8 characters exactly when the year has four digits. */
  lemma SmashedDateLength(d: Date)
    ensures |SmashedDate(d)| == 8 <==> Year(d) >= 1000
  {
    SmashedDateFields(d);
    CivilFieldsFit(d);
    ShowFourDigits(Year(d));
  }

  /** Reading a smashed token back: the year is all but the last four
      digits, then two digits each of month and day. */
  function CivilOfSmashed(s: string): Civil
    requires |s| >= 4 && AllDigits(s)
  {
    Civil(Value(s[..|s| - 4]), Value(s[|s| - 4..|s| - 2]), Value(s[|s| - 2..]))
  }

  /** The smashed token can be read back into the date's calendar fields. */
  lemma SmashedDateRoundTrip(d: Date)
    ensures |SmashedDate(d)| >= 4 && AllDigits(SmashedDate(d)) && CivilOfSmashed(SmashedDate(d)) == FromOrdinal(d)
  {
    CivilFieldsFit(d);
    ZFillShow(Month(d), 2);
    ZFillShow(Day(d), 2);
    ValueOfShow(Year(d));
    SmashedParts(Show(Year(d)), ZFill(Show(Month(d)), 2), ZFill(Show(Day(d)), 2));
    assert FromOrdinal(d) == Civil(Year(d), Month(d), Day(d));
  }

  lemma SmashedParts(y: string, m: string, dd: string)
    requires AllDigits(y) && AllDigits(m) && AllDigits(dd) && |m| == 2 && |dd| == 2
    ensures var s := y + m + dd;
      |s| >= 4 && AllDigits(s) && CivilOfSmashed(s) == Civil(Value(y), Value(m), Value(dd))
  {
    var s := y + m + dd;
    assert s[..|s| - 4] == y;
    assert s[|s| - 4..|s| - 2] == m;
    assert s[|s| - 2..] == dd;
  }

  /** Different dates have different smashed tokens. */
  lemma SmashedDateInjective(a: Date, b: Date)
    ensures SmashedDate(a) == SmashedDate(b) ==> a == b
  {
    SmashedDateRoundTrip(a);
    SmashedDateRoundTrip(b);
    FromOrdinalInjective(a, b);
  }

  /** `str(d)` is always ten characters: four for the year, two each for month and day. */
  lemma IsoFormatFields(d: Date)
    ensures var s := IsoFormat(d);
      && |s| == 10 && s[4] == '-' && s[7] == '-'
      && AllDigits(s[..4]) && Value(s[..4]) == Year(d)
      && AllDigits(s[5..7]) && Value(s[5..7]) == Month(d)
      && AllDigits(s[8..]) && Value(s[8..]) == Day(d)
  {
    CivilFieldsFit(d);
    ZFillShow(Year(d), 4);
    ZFillShow(Month(d), 2);
    ZFillShow(Day(d), 2);
    var s := IsoFormat(d);
    assert s[..4] == ZFill(Show(Year(d)), 4);
    assert s[5..7] == ZFill(Show(Month(d)), 2);
    assert s[8..] == ZFill(Show(Day(d)), 2);
  }

  /** Different dates are written differently by `str`. */
  lemma IsoFormatInjective(a: Date, b: Date)
    ensures IsoFormat(a) == IsoFormat(b) ==> a == b
  {
    IsoFormatFields(a);
    IsoFormatFields(b);
    if IsoFormat(a) == IsoFormat(b) {
      assert FromOrdinal(a) == FromOrdinal(b);
      FromOrdinalInjective(a, b);
    }
  }
}

=== FILE: decimal.dfy ===
/**
 * Decimal text as Python produces and reads it: `str(n)` for a non-negative
 * int, `str.zfill`, and `int(s)` on a string (base 10).
 */
module Decimal {
  import opened Wrappers

  predicate IsDigit(c: char) { '0' <= c <= '9' }

  predicate AllDigits(s: string) { forall i :: 0 <= i < |s| ==> IsDigit(s[i]) }

  function DigitChar(d: nat): (c: char)
    requires d < 10
    ensures IsDigit(c) && c as int - '0' as int == d
  {
    ('0' as int + d) as char
  }

  function DigitValue(c: char): nat
    requires IsDigit(c)
  {
    c as int - '0' as int
  }

  /** `str(n)` for a non-negative int: no leading zero unless `n` is 0. */
  function Show(n: nat): (s: string)
    ensures 1 <= |s| && AllDigits(s)
    ensures s[0] == '0' <==> n == 0
  {
    if n < 10 then [DigitChar(n)] else Show(n / 10) + [DigitChar(n % 10)]
  }

  /** The number a string of decimal digits denotes, most significant digit first. */
  function Value(s: string): nat
    requires AllDigits(s)
  {
    if s == [] then 0 else 10 * Value(s[..|s| - 1]) + DigitValue(s[|s| - 1])
  }

  function Pow10(k: nat): (p: nat)
    ensures p >= 1
  {
    if k == 0 then 1 else 10 * Pow10(k - 1)
  }

  function Zeros(k: nat): (z: string)
    ensures |z| == k && AllDigits(z)
    ensures forall i :: 0 <= i < k ==> z[i] == '0'
  {
    if k == 0 then [] else Zeros(k - 1) + ['0']
  }

  /** `s.zfill(width)` for an unsigned digit string: pad with '0' on the left. */
  function ZFill(s: string, width: nat): string
  {
    if |s| >= width then s else Zeros(width - |s|) + s
  }

  /** Reading `str(n)` back gives `n`. */
  lemma {:induction false} ValueOfShow(n: nat)
    ensures Value(Show(n)) == n
  {
    if n >= 10 {
      ValueOfShow(n / 10);
      var s := Show(n);
      assert s[..|s| - 1] == Show(n / 10);
    }
  }

  lemma ShowInjective(a: nat, b: nat)
    ensures Show(a) == Show(b) ==> a == b
  {
    ValueOfShow(a);
    ValueOfShow(b);
  }

  /** `str(n)` has at most `k` digits exactly when `n < 10^k`. */
  lemma {:induction false} ShowLength(n: nat, k: nat)
    requires k >= 1
    ensures |Show(n)| <= k <==> n < Pow10(k)
  {
    if n >= 10 && k >= 2 {
      ShowLength(n / 10, k - 1);
    } else if k >= 2 {
      Pow10Grows(k);
    }
  }

  lemma {:induction false} Pow10Grows(k: nat)
    requires k >= 1
    ensures Pow10(k) >= 10
  {
    if k > 1 {
      Pow10Grows(k - 1);
    }
  }

  /** A year written by `str` has four digits exactly in 1000..9999. */
  lemma ShowFourDigits(n: nat)
    ensures |Show(n)| == 4 <==> 1000 <= n < 10000
  {
    ShowLength(n, 4);
    ShowLength(n, 3);
  }

  /** A month or day written by `str` has one or two digits. */
  lemma ShowTwoDigits(n: nat)
    requires n < 100
    ensures |Show(n)| <= 2
  {
    ShowLength(n, 2);
  }

  /** Leading zeros do not change the value of a digit string. */
  lemma {:induction false} ValueOfZerosThen(k: nat, s: string)
    requires AllDigits(s)
    ensures AllDigits(Zeros(k) + s) && Value(Zeros(k) + s) == Value(s)
  {
    if s == [] {
      assert Zeros(k) + s == Zeros(k);
      ValueOfZeros(k);
    } else {
      var t := Zeros(k) + s;
      assert t[..|t| - 1] == Zeros(k) + s[..|s| - 1];
      ValueOfZerosThen(k, s[..|s| - 1]);
    }
  }

  lemma {:induction false} ValueOfZeros(k: nat)
    ensures Value(Zeros(k)) == 0
  {
    if k > 0 {
      assert Zeros(k)[..k - 1] == Zeros(k - 1);
      ValueOfZeros(k - 1);
    }
  }

  /** Zero-filling `str(n)` keeps the number and gives exactly `width`
      characters when `n` fits. */
  lemma ZFillShow(n: nat, width: nat)
    requires width >= 1 && n < Pow10(width)
    ensures AllDigits(ZFill(Show(n), width))
    ensures |ZFill(Show(n), width)| == width
    ensures Value(ZFill(Show(n), width)) == n
  {
    var s := Show(n);
    ShowLength(n, width);
    ValueOfShow(n);
    if |s| < width {
      ValueOfZerosThen(width - |s|, s);
      assert ZFill(s, width) == Zeros(width - |s|) + s;
    } else {
      assert ZFill(s, width) == s;
    }
  }

  // ---------------------------------------------------------------------
  // int(s) for a str, base 10

  /** The characters `int()` skips around a numeral: the ASCII space, tab,
      line feed, vertical tab, form feed and carriage return, and every
      non-ASCII character `str.isspace()` accepts (those are turned into a
      space first). The ASCII separators 0x1C-0x1F, which `str.isspace()`
      also accepts, are not skipped. */
  predicate IsSpace(c: char)
  {
    var k := c as int;
    k == 32 || 9 <= k <= 13 || k == 0x85 || k == 0xA0 || k == 0x1680
    || 0x2000 <= k <= 0x200A || k == 0x2028 || k == 0x2029 || k == 0x202F || k == 0x205F || k == 0x3000
  }

  function StripLeft(s: string): (t: string)
    ensures |t| <= |s| && t == s[|s| - |t|..]
    ensures t != [] ==> !IsSpace(t[0])
    ensures forall i :: 0 <= i < |s| - |t| ==> IsSpace(s[i])
  {
    if s != [] && IsSpace(s[0]) then StripLeft(s[1..]) else s
  }

  function StripRight(s: string): (t: string)
    ensures |t| <= |s| && t == s[..|t|]
    ensures t != [] ==> !IsSpace(t[|t| - 1])
    ensures forall i :: |t| <= i < |s| ==> IsSpace(s[i])
  {
    if s != [] && IsSpace(s[|s| - 1]) then StripRight(s[..|s| - 1]) else s
  }

  /** The text `int()` reads: `s` without the whitespace around it. */
  function Strip(s: string): string
  {
    StripRight(StripLeft(s))
  }

  /** Digits with single underscores between them, as `int()` accepts. */
  predicate WellFormedDigits(t: string)
  {
    && |t| >= 1
    && IsDigit(t[0])
    && IsDigit(t[|t| - 1])
    && (forall i :: 0 <= i < |t| ==> IsDigit(t[i]) || t[i] == '_')
    && (forall i :: 0 <= i < |t| - 1 && t[i] == '_' ==> t[i + 1] != '_')
  }

  function DropUnderscores(t: string): (d: string)
    ensures (forall i :: 0 <= i < |t| ==> IsDigit(t[i]) || t[i] == '_') ==> AllDigits(d)
    ensures (forall i :: 0 <= i < |t| ==> IsDigit(t[i])) ==> d == t
  {
    if t == [] then []
    else if t[0] == '_' then DropUnderscores(t[1..])
    else [t[0]] + DropUnderscores(t[1..])
  }

  /** Python's `int(s)` on a str in base 10: `None` where Python raises ValueError. */
  function ParseInt(s: string): Option<int>
  {
    var t := Strip(s);
    if |t| >= 1 && (t[0] == '+' || t[0] == '-') then
      if WellFormedDigits(t[1..]) then
        var v: int := DigitsValue(t[1..]);
        Some(if t[0] == '-' then -v else v)
      else None
    else if WellFormedDigits(t) then Some(DigitsValue(t))
    else None
  }

  function DigitsValue(t: string): nat
    requires WellFormedDigits(t)
  {
    WellFormedHasOnlyDigits(t);
    Value(DropUnderscores(t))
  }

  lemma WellFormedHasOnlyDigits(t: string)
    requires WellFormedDigits(t)
    ensures AllDigits(DropUnderscores(t))
  {
  }

  lemma StripDigits(t: string)
    requires AllDigits(t) && |t| >= 1
    ensures Strip(t) == t
  {
    StripNothing(t);
  }

  lemma StripNothing(t: string)
    requires t != [] && !IsSpace(t[0]) && !IsSpace(t[|t| - 1])
    ensures Strip(t) == t
  {
    assert StripLeft(t) == t;
  }

  lemma DigitsAreWellFormed(t: string)
    requires AllDigits(t) && |t| >= 1
    ensures WellFormedDigits(t) && DigitsValue(t) == Value(t)
  {
    assert DropUnderscores(t) == t;
  }

  /** A plain digit string reads back as the number it denotes. */
  lemma ParseDigits(s: string)
    requires AllDigits(s) && |s| >= 1
    ensures ParseInt(s) == Some(Value(s))
  {
    StripDigits(s);
    DigitsAreWellFormed(s);
    UnsignedParse(s);
  }

  lemma UnsignedParse(s: string)
    requires Strip(s) == s && WellFormedDigits(s)
    ensures ParseInt(s) == Some(DigitsValue(s))
  {
    assert !(s[0] == '+' || s[0] == '-');
  }

  /** `int(str(n)) == n`. */
  lemma ParseShow(n: nat)
    ensures ParseInt(Show(n)) == Some(n)
  {
    ParseDigits(Show(n));
    ValueOfShow(n);
  }

  /** A zero-filled field reads back as its number. */
  lemma ParseZFill(n: nat, width: nat)
    requires width >= 1 && n < Pow10(width)
    ensures ParseInt(ZFill(Show(n), width)) == Some(n)
  {
    ZFillShow(n, width);
    ParseDigits(ZFill(Show(n), width));
  }

  function Spaces(k: nat): (z: string)
    ensures |z| == k && forall i :: 0 <= i < k ==> z[i] == ' '
  {
    if k == 0 then [] else Spaces(k - 1) + [' ']
  }

  /** A right-justified field (spaces, then the digits) reads back as its number. */
  lemma ParseRightJustified(k: nat, n: nat)
    ensures ParseInt(Spaces(k) + Show(n)) == Some(n)
  {
    var s := Show(n);
    StripLeadingSpaces(k, s);
    assert StripLeft(s) == s;
    ParseSeesStripped(Spaces(k) + s, s);
    ParseShow(n);
  }

  lemma ParseSeesStripped(a: string, b: string)
    requires Strip(a) == Strip(b)
    ensures ParseInt(a) == ParseInt(b)
  {
  }

  lemma StripLeadingSpaces(k: nat, s: string)
    requires s != [] && !IsSpace(s[0])
    ensures StripLeft(Spaces(k) + s) == s
  {
    var f := Spaces(k) + s;
    var t := StripLeft(f);
    assert t == f[k..] == s;
  }
  /** A field that starts with one of the separators 0x1C-0x1F is not a
      numeral: `int()` raises ValueError. */
  lemma SeparatorNotSkipped(c: char, s: string)
    requires 28 <= c as int <= 31 && AllDigits(s)
    ensures ParseInt([c] + s) == None
  {
    var t := [c] + s;
    assert t[|t| - 1] == c || IsDigit(t[|t| - 1]);
    StripNothing(t);
  }

  // ---------------------------------------------------------------------
  // Digit grouping with underscores

  lemma {:induction false} DropUnderscoresAppend(a: string, b: string)
    ensures DropUnderscores(a + b) == DropUnderscores(a) + DropUnderscores(b)
  {
    if a == [] {
      assert a + b == b;
    } else {
      assert (a + b)[0] == a[0];
      assert (a + b)[1..] == a[1..] + b;
      DropUnderscoresAppend(a[1..], b);
    }
  }

  /** The digits of `s + t` denote `s`'s number shifted by `|t|` places plus `t`'s. */
  lemma {:induction false} ValueAppend(s: string, t: string)
    requires AllDigits(s) && AllDigits(t)
    ensures AllDigits(s + t) && Value(s + t) == Value(s) * Pow10(|t|) + Value(t)
  {
    if t == [] {
      assert s + t == s;
    } else {
      var u := t[..|t| - 1];
      ValueAppend(s, u);
      assert (s + t)[..|s + t| - 1] == s + u;
      assert (s + t)[|s + t| - 1] == t[|t| - 1];
      ShiftTen(Value(s), Pow10(|u|), Value(u), DigitValue(t[|t| - 1]));
    }
  }

  lemma ShiftTen(v: int, p: int, w: int, d: int)
    ensures 10 * (v * p + w) + d == v * (10 * p) + (10 * w + d)
  {
  }

  /** `int()` reads a numeral whose digits are grouped by an underscore, as
      in "1_000", as the digits without it. */
  lemma {:induction false} ParseGrouped(a: nat, b: nat)
    requires b < 1000
    ensures ParseInt(Show(a) + "_" + ZFill(Show(b), 3)) == Some(1000 * a + b)
  {
    var x, y := Show(a), ZFill(Show(b), 3);
    assert Pow10(3) == 1000;
    ZFillShow(b, 3);
    ValueOfShow(a);
    ParseThousands(x, y, a, b);
  }

  /** A numeral, an underscore and three more digits read as a count of
      thousands plus a remainder. */
  lemma {:induction false} ParseThousands(x: string, y: string, a: nat, b: nat)
    requires AllDigits(x) && AllDigits(y) && |x| >= 1 && |y| == 3
    requires Value(x) == a && Value(y) == b
    ensures ParseInt(x + "_" + y) == Some(1000 * a + b)
  {
    assert Value(x + y) == 1000 * a + b by {
      ValueAppend(x, y);
      assert Pow10(|y|) == 1000;
      Thousand(a, Pow10(|y|), b);
    }
    ParseGroupedDigits(x, y);
  }

  lemma Thousand(v: int, p: int, w: int)
    requires p == 1000
    ensures v * p + w == 1000 * v + w
  {
  }

  lemma ParseGroupedDigits(x: string, y: string)
    requires AllDigits(x) && AllDigits(y) && |x| >= 1 && |y| >= 1
    ensures AllDigits(x + y) && ParseInt(x + "_" + y) == Some(Value(x + y))
  {
    var s := x + "_" + y;
    GroupedDigits(x, y);
    UnsignedParse(s);
  }

  /** Two digit groups joined by one underscore form a well-formed numeral
      whose digits are the two groups. */
  lemma GroupedDigits(x: string, y: string)
    requires AllDigits(x) && AllDigits(y) && |x| >= 1 && |y| >= 1
    ensures var s := x + "_" + y;
      Strip(s) == s && WellFormedDigits(s) && DropUnderscores(s) == x + y
  {
    GroupedEnds(x, y);
    StripNothing(x + "_" + y);
    GroupedWellFormed(x, y);
    GroupedDrop(x, y);
  }

  lemma GroupedDrop(x: string, y: string)
    requires AllDigits(x) && AllDigits(y)
    ensures DropUnderscores(x + "_" + y) == x + y
  {
    var u := "_";
    DropUnderscoresAppend(x + u, y);
    DropUnderscoresAppend(x, u);
    DropSeparator();
  }

  lemma DropSeparator()
    ensures DropUnderscores("_") == ""
  {
    var u := "_";
    assert u[0] == '_' && u[1..] == [];
  }

  lemma GroupedEnds(x: string, y: string)
    requires |x| >= 1 && |y| >= 1
    ensures var s := x + "_" + y;
      s[0] == x[0] && s[|s| - 1] == y[|y| - 1]
  {
  }

  lemma GroupedWellFormed(x: string, y: string)
    requires AllDigits(x) && AllDigits(y) && |x| >= 1 && |y| >= 1
    ensures WellFormedDigits(x + "_" + y)
  {
    var s := x + "_" + y;
    GroupedEnds(x, y);
    forall i | 0 <= i < |s| && i != |x|
      ensures IsDigit(s[i])
    {
      if i < |x| { assert s[i] == x[i]; } else { assert s[i] == y[i - |x| - 1]; }
    }
    assert s[|x| + 1] == y[0];
  }
}

=== FILE: grid_decoder.dfy ===
/**
 * The Grid Decoder: the flat unsigned-byte files of the binary dataset
 * families, read after an optional header and reshaped row-major into a
 * (rows, cols) grid; the sample clamp applied before plotting
 * (`separate_data`); and the header probe that reads a file's own grid
 * dimensions (`get_current_dataset_shape`). The file system is a map from
 * path to the bytes of the file.
 */
module GridDecoder {
  import opened Wrappers
  import opened Decimal

  type Byte = b: int | 0 <= b < 256

  type FileSystem = map<string, seq<Byte>>

  /** A 2-D array of samples, as a sequence of rows. */
  type Grid = seq<seq<int>>

  datatype Shape = Shape(rows: nat, cols: nat)

  predicate IsShape(g: Grid, rows: nat, cols: nat)
  {
    |g| == rows && forall i :: 0 <= i < |g| ==> |g[i]| == cols
  }

  // ---------------------------------------------------------------------
  // Row-major reshape and its inverse

  lemma RowEnd(i: nat, rows: nat, cols: nat)
    requires i < rows
    ensures 0 <= i * cols <= (i + 1) * cols <= rows * cols
  {
    assert (i + 1) * cols == i * cols + cols;
    MulMonotone(i + 1, rows, cols);
  }

  lemma MulMonotone(a: nat, b: nat, c: nat)
    requires a <= b
    ensures a * c <= b * c
  {
    assert b * c == a * c + (b - a) * c;
  }

  /** The sample at row `i`, column `j` of row-major data with `cols` columns. */
  function RowMajor(data: seq<int>, rows: nat, cols: nat, i: nat, j: nat): int
    requires |data| == rows * cols && i < rows && j < cols
  {
    RowEnd(i, rows, cols);
    data[i * cols + j]
  }

  /** Row `i` of a row-major reshape: `cols` consecutive samples. */
  function Row(data: seq<int>, rows: nat, cols: nat, i: nat): (row: seq<int>)
    requires i < rows && |data| == rows * cols
    ensures |row| == cols
  {
    RowEnd(i, rows, cols);
    data[i * cols..(i + 1) * cols]
  }

  lemma RowAt(data: seq<int>, rows: nat, cols: nat, i: nat, j: nat)
    requires i < rows && |data| == rows * cols && j < cols
    ensures Row(data, rows, cols, i)[j] == RowMajor(data, rows, cols, i, j)
  {
    RowEnd(i, rows, cols);
  }

  /** `numpy.reshape(data, (rows, cols))`: `None` where NumPy raises
      ValueError because the element count is not `rows * cols`. */
  function Reshape(data: seq<int>, rows: nat, cols: nat): (r: Option<Grid>)
    ensures r.Some? <==> |data| == rows * cols
    ensures r.Some? ==> IsShape(r.value, rows, cols)
    ensures r.Some? ==> forall i: nat, j: nat :: i < rows && j < cols ==> r.value[i][j] == RowMajor(data, rows, cols, i, j)
  {
    if |data| != rows * cols then None
    else
      var g := seq(rows, i requires 0 <= i < rows => Row(data, rows, cols, i));
      forall i: nat, j: nat | i < rows && j < cols
        ensures g[i][j] == RowMajor(data, rows, cols, i, j)
      {
        RowAt(data, rows, cols, i, j);
      }
      Some(g)
  }

  /** The samples of a grid in row-major order. */
  function Flatten(g: Grid): seq<int>
  {
    if g == [] then [] else g[0] + Flatten(g[1..])
  }

  lemma {:induction false} FlattenLength(g: Grid, rows: nat, cols: nat)
    requires IsShape(g, rows, cols)
    ensures |Flatten(g)| == rows * cols
  {
    if g != [] {
      FlattenLength(g[1..], rows - 1, cols);
      assert rows * cols == cols + (rows - 1) * cols;
    }
  }

  lemma {:induction false} FlattenAt(g: Grid, rows: nat, cols: nat, i: nat, j: nat)
    requires IsShape(g, rows, cols) && i < rows && j < cols
    ensures |Flatten(g)| == rows * cols && i * cols + j < rows * cols
    ensures Flatten(g)[i * cols + j] == g[i][j]
  {
    FlattenLength(g, rows, cols);
    RowEnd(i, rows, cols);
    if i > 0 {
      FlattenAt(g[1..], rows - 1, cols, i - 1, j);
      assert i * cols + j == cols + ((i - 1) * cols + j);
    }
  }

  /** Reshaping a grid's samples gives the grid back. */
  lemma ReshapeFlatten(g: Grid, rows: nat, cols: nat)
    requires IsShape(g, rows, cols)
    ensures Reshape(Flatten(g), rows, cols) == Some(g)
  {
    FlattenLength(g, rows, cols);
    var r := Reshape(Flatten(g), rows, cols).value;
    forall i | 0 <= i < rows
      ensures r[i] == g[i]
    {
      forall j | 0 <= j < cols
        ensures r[i][j] == g[i][j]
      {
        FlattenAt(g, rows, cols, i, j);
      }
    }
    assert r == g;
  }

  /** The first row of a reshape, then the reshape of the rest. */
  lemma ReshapeCons(data: seq<int>, rows: nat, cols: nat)
    requires rows >= 1 && |data| == rows * cols
    ensures cols <= |data| && |data[cols..]| == (rows - 1) * cols
    ensures Reshape(data, rows, cols).value == [data[..cols]] + Reshape(data[cols..], rows - 1, cols).value
  {
    assert rows * cols == cols + (rows - 1) * cols;
    var whole := Reshape(data, rows, cols).value;
    var rest := Reshape(data[cols..], rows - 1, cols).value;
    assert whole[0] == data[..cols] by {
      assert whole[0] == Row(data, rows, cols, 0);
    }
    forall i | 1 <= i < rows
      ensures whole[i] == rest[i - 1]
    {
      RowShift(data, rows, cols, i);
    }
    assert whole == [data[..cols]] + rest;
  }

  lemma RowShift(data: seq<int>, rows: nat, cols: nat, i: nat)
    requires 1 <= i < rows && |data| == rows * cols
    ensures cols <= |data| && |data[cols..]| == (rows - 1) * cols
    ensures Row(data, rows, cols, i) == Row(data[cols..], rows - 1, cols, i - 1)
  {
    var a := (i - 1) * cols;
    RowEnd(i - 1, rows - 1, cols);
    assert rows * cols == cols + (rows - 1) * cols;
    assert i * cols == cols + a && (i + 1) * cols == cols + a + cols;
  }

  /** Flattening a reshape gives the bytes back. */
  lemma {:induction false} FlattenReshape(data: seq<int>, rows: nat, cols: nat)
    requires |data| == rows * cols
    ensures Flatten(Reshape(data, rows, cols).value) == data
  {
    if rows > 0 {
      ReshapeCons(data, rows, cols);
      FlattenReshape(data[cols..], rows - 1, cols);
      assert data == data[..cols] + data[cols..];
    }
  }

  // ---------------------------------------------------------------------
  // separate_data: the sample clamp

  function Min(a: int, b: int): int
  {
    if a <= b then a else b
  }

  /** `numpy.minimum(data, byte)`: every sample clamped to at most `byte`, the
      shape kept. */
  function SeparateData(g: Grid, byte: int): (r: Grid)
    ensures |r| == |g| && forall i :: 0 <= i < |g| ==> |r[i]| == |g[i]|
    ensures forall i, j :: 0 <= i < |g| && 0 <= j < |g[i]| ==> r[i][j] <= byte && r[i][j] <= g[i][j]
    ensures forall i, j :: 0 <= i < |g| && 0 <= j < |g[i]| ==> (r[i][j] == g[i][j] <==> g[i][j] <= byte)
    ensures forall i, j :: 0 <= i < |g| && 0 <= j < |g[i]| && g[i][j] > byte ==> r[i][j] == byte
  {
    seq(|g|, i requires 0 <= i < |g| => seq(|g[i]|, j requires 0 <= j < |g[i]| => Min(g[i][j], byte)))
  }

  /** Clamping twice is clamping once. */
  lemma SeparateDataIdempotent(g: Grid, byte: int)
    ensures SeparateData(SeparateData(g, byte), byte) == SeparateData(g, byte)
  {
    var once := SeparateData(g, byte);
    var twice := SeparateData(once, byte);
    forall i | 0 <= i < |g|
      ensures twice[i] == once[i]
    {
    }
  }

  /** A grid already within the threshold is left unchanged. */
  lemma SeparateDataWithin(g: Grid, byte: int)
    requires forall i, j :: 0 <= i < |g| && 0 <= j < |g[i]| ==> g[i][j] <= byte
    ensures SeparateData(g, byte) == g
  {
    var r := SeparateData(g, byte);
    forall i | 0 <= i < |g|
      ensures r[i] == g[i]
    {
    }
  }

  // ---------------------------------------------------------------------
  // Flat binary decoding

  predicate OccursAt(s: string, pattern: string, i: nat)
  {
    i + |pattern| <= |s| && s[i..i + |pattern|] == pattern
  }

  lemma OccursAtChars(s: string, pattern: string, i: nat)
    requires i + |pattern| <= |s| && forall k :: 0 <= k < |pattern| ==> s[i + k] == pattern[k]
    ensures OccursAt(s, pattern, i)
  {
    assert s[i..i + |pattern|] == pattern;
  }

  /** Python's `pattern in s` for strings. */
  function Contains(s: string, pattern: string): (b: bool)
    ensures b <==> exists i: nat :: OccursAt(s, pattern, i)
  {
    if |s| < |pattern| then false
    else if s[..|pattern|] == pattern then
      assert OccursAt(s, pattern, 0);
      true
    else
      var b := Contains(s[1..], pattern);
      assert b ==> exists i: nat :: OccursAt(s, pattern, i) by {
        if b {
          var k: nat :| OccursAt(s[1..], pattern, k);
          assert s[1..][k..k + |pattern|] == s[k + 1..k + 1 + |pattern|];
          assert OccursAt(s, pattern, k + 1);
        }
      }
      assert (exists i: nat :: OccursAt(s, pattern, i)) ==> b by {
        if exists i: nat :: OccursAt(s, pattern, i) {
          var i: nat :| OccursAt(s, pattern, i);
          assert i != 0;
          assert s[1..][i - 1..i - 1 + |pattern|] == s[i..i + |pattern|];
          assert OccursAt(s[1..], pattern, i - 1);
        }
      }
      b
  }

  /** A pattern found in a part of a string is found in the whole. */
  lemma ContainsBefore(a: string, c: string, pattern: string)
    requires Contains(a, pattern)
    ensures Contains(a + c, pattern)
  {
    var i: nat :| OccursAt(a, pattern, i);
    assert (a + c)[i..i + |pattern|] == a[i..i + |pattern|];
    assert OccursAt(a + c, pattern, i);
  }

  lemma ContainsInMiddle(a: string, b: string, c: string, pattern: string)
    requires Contains(b, pattern)
    ensures Contains(a + b + c, pattern)
  {
    var i: nat :| OccursAt(b, pattern, i);
    assert (a + b + c)[|a| + i..|a| + i + |pattern|] == b[i..i + |pattern|];
    assert OccursAt(a + b + c, pattern, |a| + i);
  }

  /** The bytes skipped before the samples: `fp.seek(300)` exactly when the
      path contains "0051". */
  function HeaderOffset(path: string): nat
  {
    if Contains(path, "0051") then 300 else 0
  }

  datatype Decoded = Decoded(grid: Grid) | NotFound | Corrupt

  /** The samples `numpy.fromfile` reads after seeking to `offset`: the bytes
      from the offset on. A seek past the end makes the element count
      negative, and NumPy then raises ValueError (`None`). */
  function Remainder(bytes: seq<Byte>, offset: nat): (rest: Option<seq<int>>)
    ensures rest.Some? <==> offset <= |bytes|
    ensures rest.Some? ==> |rest.value| == |bytes| - offset
    ensures rest.Some? ==> forall k :: 0 <= k < |rest.value| ==> rest.value[k] == bytes[offset + k]
  {
    if offset <= |bytes| then Some(bytes[offset..]) else None
  }

  /** `open(path, 'rb')`, the seek, `numpy.fromfile(fp, dtype=uint8)` and
      `.reshape(shape)`: FileNotFoundError becomes `NotFound`, the ValueError
      of `fromfile` or of the reshape becomes `Corrupt`. The decode succeeds
      exactly when the file is the header and `rows * cols` samples. */
  function DecodeFlatBinary(fs: FileSystem, path: string, shape: Shape): (r: Decoded)
    ensures r.NotFound? <==> path !in fs
    ensures r.Decoded? <==> path in fs && |fs[path]| == HeaderOffset(path) + shape.rows * shape.cols
    ensures r.Decoded? ==> IsShape(r.grid, shape.rows, shape.cols)
    ensures r.Decoded? ==> forall i: nat, j: nat :: i < shape.rows && j < shape.cols ==>
      r.grid[i][j] == RowMajor(fs[path][HeaderOffset(path)..], shape.rows, shape.cols, i, j)
  {
    if path !in fs then NotFound
    else
      match Remainder(fs[path], HeaderOffset(path))
      case None => Corrupt
      case Some(rest) =>
        assert rest == fs[path][HeaderOffset(path)..];
        match Reshape(rest, shape.rows, shape.cols)
        case None => Corrupt
        case Some(g) => Decoded(g)
  }

  /** Sample (i, j) of a decoded grid is the file's byte at the header
      offset plus `i * cols + j`. */
  lemma DecodedSample(fs: FileSystem, path: string, shape: Shape, i: nat, j: nat)
    requires DecodeFlatBinary(fs, path, shape).Decoded? && i < shape.rows && j < shape.cols
    ensures HeaderOffset(path) + i * shape.cols + j < |fs[path]|
    ensures DecodeFlatBinary(fs, path, shape).grid[i][j] == fs[path][HeaderOffset(path) + i * shape.cols + j]
  {
    RowEnd(i, shape.rows, shape.cols);
  }

  /** A file of exactly a header and `rows * cols` samples decodes to those
      samples, and flattening the grid gives them back. */
  lemma DecodeWellFormed(fs: FileSystem, path: string, shape: Shape, samples: seq<Byte>)
    requires path in fs && |samples| == shape.rows * shape.cols
    requires |fs[path]| == HeaderOffset(path) + |samples| && fs[path][HeaderOffset(path)..] == samples
    ensures DecodeFlatBinary(fs, path, shape).Decoded?
    ensures Flatten(DecodeFlatBinary(fs, path, shape).grid) == samples
  {
    FlattenReshape(samples, shape.rows, shape.cols);
  }

  // ---------------------------------------------------------------------
  // get_current_dataset_shape: the header probe

  /** Python's `s[lo:hi]` with negative indices counted from the end and
      bounds clipped to the sequence. */
  function PySlice<T>(s: seq<T>, lo: int, hi: int): seq<T>
  {
    var a := SliceIndex(|s|, lo);
    var b := SliceIndex(|s|, hi);
    if a < b then s[a..b] else []
  }

  function SliceIndex(len: nat, i: int): (k: nat)
    ensures k <= len
  {
    if i < 0 then (if len + i < 0 then 0 else len + i) else if i > len then len else i
  }

  /** `bytes.decode("utf-8")` on ASCII bytes; `None` (a ValueError) for any
      byte of 128 or more. */
  function AsciiDecode(bs: seq<Byte>): (r: Option<string>)
    ensures r.Some? <==> forall i :: 0 <= i < |bs| ==> bs[i] < 128
    ensures r.Some? ==> |r.value| == |bs| && forall i :: 0 <= i < |bs| ==> r.value[i] as int == bs[i]
  {
    if forall i :: 0 <= i < |bs| ==> bs[i] < 128 then Some(Chars(bs)) else None
  }

  function Chars(bs: seq<Byte>): (s: string)
    ensures |s| == |bs| && forall i :: 0 <= i < |bs| ==> s[i] as int == bs[i]
  {
    seq(|bs|, i requires 0 <= i < |bs| => bs[i] as char)
  }

  /** The bytes of an ASCII string. */
  function AsciiEncode(s: string): seq<Byte>
    requires forall i :: 0 <= i < |s| ==> s[i] as int < 128
  {
    seq(|s|, i requires 0 <= i < |s| => s[i] as int)
  }

  lemma AsciiRoundTrip(s: string)
    requires forall i :: 0 <= i < |s| ==> s[i] as int < 128
    ensures AsciiDecode(AsciiEncode(s)) == Some(s)
  {
    var bs := AsciiEncode(s);
    assert AsciiDecode(bs).Some?;
    var t := AsciiDecode(bs).value;
    assert |t| == |s|;
    forall i | 0 <= i < |s|
      ensures t[i] == s[i]
    {
      assert t[i] as int == bs[i] == s[i] as int;
    }
    assert t == s;
  }

  /** `int(data[at:at+4].decode("utf-8"))`; `None` for a ValueError. */
  function HeaderField(data: seq<Byte>, at: int): Option<int>
  {
    match AsciiDecode(PySlice(data, at, at + 4))
    case None => None
    case Some(text) => ParseInt(text)
  }

  datatype ProbeError = ProbeFileNotFound | ProbeValueError

  /** `get_current_dataset_shape(uri, col_st, row_st)`: `cols` is read from
      the field at `row_st` first, then `rows` from the field at `col_st`, and
      the result is `(rows, cols)`. */
  function GetCurrentDatasetShape(fs: FileSystem, uri: string, colSt: int, rowSt: int): (r: Result<(int, int), ProbeError>)
    ensures r == Failure(ProbeFileNotFound) <==> uri !in fs
    ensures r.Success? <==> uri in fs && HeaderField(fs[uri], rowSt).Some? && HeaderField(fs[uri], colSt).Some?
    ensures r.Success? ==> r.value == (HeaderField(fs[uri], colSt).value, HeaderField(fs[uri], rowSt).value)
  {
    if uri !in fs then Failure(ProbeFileNotFound)
    else
      var data := fs[uri];
      match HeaderField(data, rowSt)
      case None => Failure(ProbeValueError)
      case Some(cols) =>
        match HeaderField(data, colSt)
        case None => Failure(ProbeValueError)
        case Some(rows) => Success((rows, cols))
  }

  /** A four-digit zero-filled decimal field, as bytes. */
  function EncodeField(n: nat): seq<Byte>
    requires n < 10000
  {
    ZFillShow(n, 4);
    AsciiEncode(ZFill(Show(n), 4))
  }

  lemma HeaderFieldRoundTrip(data: seq<Byte>, at: nat, n: nat)
    requires n < 10000 && at + 4 <= |data|
    requires data[at..at + 4] == EncodeField(n)
    ensures HeaderField(data, at) == Some(n)
  {
    ZFillShow(n, 4);
    assert PySlice(data, at, at + 4) == data[at..at + 4];
    AsciiRoundTrip(ZFill(Show(n), 4));
    ParseZFill(n, 4);
  }

  /** A header that carries `rows` at `colSt` and `cols` at `rowSt` probes as
      `(rows, cols)`. */
  lemma ProbeRoundTrip(fs: FileSystem, uri: string, colSt: nat, rowSt: nat, rows: nat, cols: nat)
    requires uri in fs && rows < 10000 && cols < 10000
    requires colSt + 4 <= |fs[uri]| && fs[uri][colSt..colSt + 4] == EncodeField(rows)
    requires rowSt + 4 <= |fs[uri]| && fs[uri][rowSt..rowSt + 4] == EncodeField(cols)
    ensures GetCurrentDatasetShape(fs, uri, colSt, rowSt) == Success((rows, cols))
  {
    HeaderFieldRoundTrip(fs[uri], colSt, rows);
    HeaderFieldRoundTrip(fs[uri], rowSt, cols);
  }
}

=== FILE: path_formatter.dfy ===
/**
 * The Path Formatter (`form_uri`): a dataset path template is a sequence of
 * literal text and named replacement fields, and formatting it substitutes
 * the year and the smashed date tokens of a frame's start (and, when given,
 * end) date.
 */
module PathFormatter {
  import opened Wrappers
  import opened Decimal
  import opened Dates

  /** One piece of a `str.format` template: literal text, or `{name}`. */
  datatype Token = Lit(text: string) | Field(name: string)

  type Template = seq<Token>

  /** The keyword arguments `form_uri` passes to `format`: `yyyy`, `yymmdd`,
      `syymmdd` always, and `eyymmdd` only when an end date is supplied. */
  function FieldValue(name: string, start: Date, end: Option<Date>): Option<string>
  {
    if name == "yyyy" then Some(Show(Year(start)))
    else if name == "yymmdd" || name == "syymmdd" then Some(SmashedDate(start))
    else if name == "eyymmdd" && end.Some? then Some(SmashedDate(end.value))
    else None
  }

  predicate HasValue(tok: Token, start: Date, end: Option<Date>)
  {
    tok.Field? ==> FieldValue(tok.name, start, end).Some?
  }

  /** `form_uri(template, start, end_date=end)`: `Failure(name)` is the
      KeyError `format` raises for the first field, left to right, that has no
      value. */
  function FormUri(t: Template, start: Date, end: Option<Date>): (r: Result<string, string>)
    ensures r.Success? <==> forall i :: 0 <= i < |t| ==> HasValue(t[i], start, end)
    ensures r.Failure? ==> exists i :: 0 <= i < |t| && t[i] == Field(r.error) && !HasValue(t[i], start, end)
                                        && forall j :: 0 <= j < i ==> HasValue(t[j], start, end)
  {
    if t == [] then Success("")
    else
      var rest := FormUri(t[1..], start, end);
      match t[0]
      case Lit(s) => if rest.Success? then Success(s + rest.value) else rest
      case Field(n) =>
        match FieldValue(n, start, end)
        case None => Failure(n)
        case Some(v) => if rest.Success? then Success(v + rest.value) else rest
  }

  /** What one token turns into once `format` succeeds. */
  function Piece(tok: Token, start: Date, end: Option<Date>): string
    requires HasValue(tok, start, end)
  {
    match tok
    case Lit(s) => s
    case Field(n) => FieldValue(n, start, end).value
  }

  // ---------------------------------------------------------------------
  // Properties of form_uri

  /** The strings of `ss` joined in order, as `"".join(ss)`. */
  function Concat(ss: seq<string>): string
  {
    if ss == [] then "" else ss[0] + Concat(ss[1..])
  }

  /** Every token of a template that formats, each turned into its piece. */
  function Pieces(t: Template, start: Date, end: Option<Date>): (ps: seq<string>)
    requires forall i :: 0 <= i < |t| ==> HasValue(t[i], start, end)
    ensures |ps| == |t| && forall i :: 0 <= i < |t| ==> ps[i] == Piece(t[i], start, end)
  {
    seq(|t|, i requires 0 <= i < |t| && HasValue(t[i], start, end) => Piece(t[i], start, end))
  }

  /** A successful format is the pieces of the template joined in order:
      each literal as written and each field's value in place of the field. */
  lemma {:induction false} FormUriPieces(t: Template, start: Date, end: Option<Date>)
    requires FormUri(t, start, end).Success?
    ensures FormUri(t, start, end).value == Concat(Pieces(t, start, end))
  {
    if t != [] {
      FormUriPieces(t[1..], start, end);
      var ps := Pieces(t, start, end);
      assert ps[1..] == Pieces(t[1..], start, end);
    }
  }

  /** The first piece of a successful format, then the rest. */
  lemma FormUriFirstPiece(t: Template, start: Date, end: Option<Date>)
    requires FormUri(t, start, end).Success? && t != []
    ensures FormUri(t, start, end).value == Piece(t[0], start, end) + FormUri(t[1..], start, end).value
  {
    FormUriPieces(t, start, end);
    FormUriPieces(t[1..], start, end);
    assert Pieces(t, start, end)[1..] == Pieces(t[1..], start, end);
  }

  /** A template that does not mention `{eyymmdd}` ignores a supplied end date. */
  lemma {:induction false} EndDateIgnored(t: Template, start: Date, end: Date)
    requires Field("eyymmdd") !in t
    ensures FormUri(t, start, Some(end)) == FormUri(t, start, None)
  {
    if t != [] {
      assert Field("eyymmdd") !in t[1..];
      EndDateIgnored(t[1..], start, end);
    }
  }

  /** A template that mentions `{eyymmdd}` fails without an end date. */
  lemma EndFieldNeedsEndDate(t: Template, start: Date)
    requires Field("eyymmdd") in t
    ensures FormUri(t, start, None).Failure?
  {
    var i :| 0 <= i < |t| && t[i] == Field("eyymmdd");
    assert !HasValue(t[i], start, None);
  }

  /** With every field known, the first missing one is exactly `eyymmdd`. */
  lemma MissingEndIsKeyError(t: Template, start: Date)
    requires Field("eyymmdd") in t
    requires forall i :: 0 <= i < |t| && t[i].Field? ==> t[i].name in {"yyyy", "yymmdd", "syymmdd", "eyymmdd"}
    ensures FormUri(t, start, None) == Failure("eyymmdd")
  {
    EndFieldNeedsEndDate(t, start);
  }

  /** For four-digit years every field's value has a fixed width. */
  predicate FourDigitYears(start: Date, end: Option<Date>)
  {
    Year(start) >= 1000 && (end.Some? ==> Year(end.value) >= 1000)
  }

  lemma FieldWidth(name: string, start: Date, end: Option<Date>)
    requires FourDigitYears(start, end) && FieldValue(name, start, end).Some?
    ensures |FieldValue(name, start, end).value| == if name == "yyyy" then 4 else 8
  {
    ShowFourDigits(Year(start));
    SmashedDateLength(start);
    if end.Some? {
      SmashedDateLength(end.value);
    }
  }

  /** Two successful formats of one template that give the same path, with
      four-digit years, substituted the same value for every field. */
  lemma {:induction false} SamePathSameFields(t: Template, s1: Date, e1: Option<Date>, s2: Date, e2: Option<Date>)
    requires FourDigitYears(s1, e1) && FourDigitYears(s2, e2)
    requires FormUri(t, s1, e1).Success? && FormUri(t, s2, e2).Success?
    requires FormUri(t, s1, e1).value == FormUri(t, s2, e2).value
    ensures forall i :: 0 <= i < |t| && t[i].Field? ==> FieldValue(t[i].name, s1, e1) == FieldValue(t[i].name, s2, e2)
  {
    if t != [] {
      FormUriFirstPiece(t, s1, e1);
      FormUriFirstPiece(t, s2, e2);
      var p1, p2 := Piece(t[0], s1, e1), Piece(t[0], s2, e2);
      var r1, r2 := FormUri(t[1..], s1, e1).value, FormUri(t[1..], s2, e2).value;
      if t[0].Field? {
        FieldWidth(t[0].name, s1, e1);
        FieldWidth(t[0].name, s2, e2);
      }
      assert |p1| == |p2|;
      assert p1 + r1 == p2 + r2;
      assert p1 == (p1 + r1)[..|p1|] == (p2 + r2)[..|p2|] == p2;
      assert r1 == (p1 + r1)[|p1|..] == (p2 + r2)[|p2|..] == r2;
      SamePathSameFields(t[1..], s1, e1, s2, e2);
      forall i | 0 <= i < |t| && t[i].Field?
        ensures FieldValue(t[i].name, s1, e1) == FieldValue(t[i].name, s2, e2)
      {
        if i > 0 {
          assert t[i] == t[1..][i - 1];
        }
      }
    }
  }

  /** A template that places the start date's token gives each start date
      (with a four-digit year) its own path. */
  lemma FormUriDistinguishesDates(t: Template, s1: Date, e1: Option<Date>, s2: Date, e2: Option<Date>)
    requires Field("yymmdd") in t || Field("syymmdd") in t
    requires FourDigitYears(s1, e1) && FourDigitYears(s2, e2)
    requires FormUri(t, s1, e1).Success? && FormUri(t, s2, e2).Success?
    ensures FormUri(t, s1, e1) == FormUri(t, s2, e2) ==> s1 == s2
  {
    if FormUri(t, s1, e1) == FormUri(t, s2, e2) {
      SamePathSameFields(t, s1, e1, s2, e2);
      var i :| 0 <= i < |t| && (t[i] == Field("yymmdd") || t[i] == Field("syymmdd"));
      assert SmashedDate(s1) == SmashedDate(s2);
      SmashedDateInjective(s1, s2);
    }
  }

  /** Without four-digit years the two lemmas above fail: `str(year)` is not
      padded, so tokens of different lengths can run together. The template
      `{yymmdd}{eyymmdd}` gives start 0500-01-01 with end 1234-05-06, and
      start 5000-10-11 with end 0234-05-06, the same path
      "500010112340506". */
  lemma {:induction false} ShortYearsCollide(s1: Date, e1: Date, s2: Date, e2: Date)
    requires FromOrdinal(s1) == Civil(500, 1, 1) && FromOrdinal(e1) == Civil(1234, 5, 6)
    requires FromOrdinal(s2) == Civil(5000, 10, 11) && FromOrdinal(e2) == Civil(234, 5, 6)
    ensures var t := [Field("yymmdd"), Field("eyymmdd")];
      && FormUri(t, s1, Some(e1)) == FormUri(t, s2, Some(e2)) == Success("500010112340506")
      && s1 != s2
      && FieldValue("yymmdd", s1, Some(e1)) != FieldValue("yymmdd", s2, Some(e2))
  {
    ShortYearDigits();
    TokenOf(s1, 500, 1, 1);
    TokenOf(e1, 1234, 5, 6);
    TokenOf(s2, 5000, 10, 11);
    TokenOf(e2, 234, 5, 6);
    var a, b, c, d := SmashedDate(s1), SmashedDate(e1), SmashedDate(s2), SmashedDate(e2);
    assert a == "5000101" && b == "12340506" && c == "50001011" && d == "2340506";
    assert a + b == c + d == "500010112340506";
    TwoFields("yymmdd", "eyymmdd", s1, Some(e1));
    TwoFields("yymmdd", "eyymmdd", s2, Some(e2));
  }

  /** A template of two fields, both known, formats to their values joined. */
  lemma {:induction false} TwoFields(x: string, y: string, start: Date, end: Option<Date>)
    requires FieldValue(x, start, end).Some? && FieldValue(y, start, end).Some?
    ensures FormUri([Field(x), Field(y)], start, end) == Success(FieldValue(x, start, end).value + FieldValue(y, start, end).value)
  {
    var t := [Field(x), Field(y)];
    assert t[1..] == [Field(y)] && t[1..][1..] == [];
    assert FormUri(t[1..][1..], start, end) == Success("");
    assert FormUri(t[1..], start, end) == Success(FieldValue(y, start, end).value + "");
    assert FieldValue(y, start, end).value + "" == FieldValue(y, start, end).value;
  }

  lemma TokenOf(d: Date, y: nat, m: nat, day: nat)
    requires FromOrdinal(d) == Civil(y, m, day)
    ensures SmashedDate(d) == Show(y) + ZFill(Show(m), 2) + ZFill(Show(day), 2)
  {
  }

  lemma ShortYearDigits()
    ensures Show(500) == "500" && Show(1234) == "1234" && Show(5000) == "5000" && Show(234) == "234"
    ensures ZFill(Show(1), 2) == "01" && ZFill(Show(5), 2) == "05" && ZFill(Show(6), 2) == "06"
    ensures ZFill(Show(10), 2) == "10" && ZFill(Show(11), 2) == "11"
  {
  }

  // ---------------------------------------------------------------------
  // The dataset families' templates, as token sequences (the literal text
  // is split at the dataset directory only for readability)

  const Nsidc0051North: Template :=
    [Lit("/projects/DATASETS/" + "nsidc0051_gsfc_nasateam_seaice" + "/final-gsfc/north/daily/"), Field("yyyy"),
     Lit("/nt_"), Field("yymmdd"), Lit("_f17_v1.1_n.bin")]

  const Nsidc0051South: Template :=
    [Lit("/projects/DATASETS/" + "nsidc0051_gsfc_nasateam_seaice" + "/final-gsfc/south/daily/"), Field("yyyy"),
     Lit("/nt_"), Field("yymmdd"), Lit("_f17_v1.1_s.bin")]

  const Nsidc0051NorthStaging: Template :=
    [Lit("/disks/sidads_staging/DATASETS/" + "nsidc0051_ gsfc_nasateam_seaice" + "/final-gsfc/north/daily/"), Field("yyyy"),
     Lit("/nt_"), Field("yymmdd"), Lit("_f17_v1.1_n.bin")]

  const Nsidc0051SouthStaging: Template :=
    [Lit("/disks/sidads_staging/DATASETS/" + "nsidc0051_gsfc_nasateam_seaice" + "/final-gsfc/south/daily/"), Field("yyyy"),
     Lit("/nt_"), Field("yymmdd"), Lit("_f17_v1.1_s.bin")]

  const Nsidc0046: Template :=
    [Lit("/projects/DATASETS/" + "nsidc0046_weekly_snow_seaice" + "/data/EASE2_N25km.snowice."), Field("syymmdd"),
     Lit("-"), Field("eyymmdd"), Lit(".v04.bin")]

  const Nsidc0046Staging: Template :=
    [Lit("/disks/sidads_staging/DATASETS/" + "nsidc0046_weekly_snow_seaice" + "/data/EASE2_N25km.snowice."), Field("syymmdd"),
     Lit("-"), Field("eyymmdd"), Lit(".v04.bin")]

  const Nsidc0046BrowseStaging: Template :=
    [Lit("/disks/sidads_staging/DATASETS/" + "nsidc0046_weekly_snow_seaice" + "/browse/EASE2_N25km.snowice."), Field("syymmdd"),
     Lit("-"), Field("eyymmdd"), Lit(".v04.png")]
}

=== FILE: renderer.dfy ===
/**
 * The Frame Renderer (`render`) and the session state it reads: the settings
 * `const.set_constants` installs, the single-slot last-good-frame cache
 * (`LAST_DATASET`), the frames handed to the plotting backend and the lines
 * printed. One call resolves the frame's date and path, decodes the file,
 * and either draws the fresh grid or falls back to the cached one.
 */
module Renderer {
  import opened Wrappers
  import opened Decimal
  import opened Dates
  import opened DateSequencer
  import opened PathFormatter
  import opened GridDecoder

  /** What `create_plot` hands to the plotting backend: the title set with
      `plot.title` and the samples and colormap given to `plot.imshow`. */
  datatype Frame = Frame(title: string, data: Grid, colormap: string)

  /** The title `create_plot` sets: `str(date)`, after `prefix + " "` when a
      prefix is given. */
  function Title(date: Date, prefix: Option<string>): string
  {
    match prefix
    case None => IsoFormat(date)
    case Some(p) => p + " " + IsoFormat(date)
  }

  /** `create_plot(plot, date, data, colormap, separate_byte, title=prefix)`:
      the samples are clamped to `separate_byte` whenever it is not 0 (a
      negative threshold included), and shown unchanged when it is 0. */
  function CreatePlot(date: Date, data: Grid, colormap: string, separateByte: int, prefix: Option<string>): (f: Frame)
    ensures f.colormap == colormap && f.title == Title(date, prefix)
    ensures separateByte == 0 ==> f.data == data
    ensures |f.data| == |data| && forall i :: 0 <= i < |data| ==> |f.data[i]| == |data[i]|
    ensures separateByte != 0 ==> forall i, j :: 0 <= i < |data| && 0 <= j < |data[i]| ==> f.data[i][j] == Min(data[i][j], separateByte)
  {
    Frame(Title(date, prefix), if separateByte != 0 then SeparateData(data, separateByte) else data, colormap)
  }

  /** A title ends with the ten characters of `str(date)`, after the prefix
      and a space when a prefix is given. */
  lemma TitleShape(date: Date, prefix: Option<string>)
    ensures var t := Title(date, prefix);
      && |t| >= 10 && t[|t| - 10..] == IsoFormat(date)
      && (prefix.None? ==> |t| == 10)
      && (prefix.Some? ==> |t| == |prefix.value| + 11 && t[..|prefix.value| + 1] == prefix.value + " ")
  {
    IsoFormatFields(date);
  }

  /** A title names one date and one prefix: two titles are equal only for
      the same date and the same (or the same absent) prefix. */
  lemma TitleDistinguishes(d1: Date, p1: Option<string>, d2: Date, p2: Option<string>)
    ensures Title(d1, p1) == Title(d2, p2) ==> d1 == d2 && p1 == p2
  {
    var t1, t2 := Title(d1, p1), Title(d2, p2);
    TitleShape(d1, p1);
    TitleShape(d2, p2);
    if t1 == t2 {
      IsoFormatInjective(d1, d2);
      if p1.Some? && p2.Some? {
        assert p1.value + " " == t1[..|p1.value| + 1];
        assert p1.value == (p1.value + " ")[..|p1.value|] == (p2.value + " ")[..|p2.value|] == p2.value;
      }
    }
  }

  // ---------------------------------------------------------------------
  // What one call of render does

  /** The exceptions `render` does not catch. */
  datatype Uncaught =
    | IndexError          // the frame index is outside the dates array
    | OverflowError       // the range's end date is past the last representable date
    | KeyError(key: string) // the template names a field form_uri does not supply
    | UnboundStartDate    // image mode outside range mode reads start_date, never assigned
    | UnboundLastDataset  // a fallback before any grid was cached reads LAST_DATASET, never assigned
    | ImageUnreadable     // the image decoder fails with neither FileNotFoundError nor ValueError

  /** What `mpimg.imread` gives for the bytes of an existing file. */
  datatype ImageRead = Image(grid: Grid) | ImageValueError | ImageUnreadableError

  datatype Outcome = ReturnsImage(frame: Frame) | ReturnsNone | Raises(error: Uncaught)

  /** The two exceptions `render` catches. */
  datatype FileFault = Missing | Corrupted

  function FaultPrefix(fault: FileFault): string
  {
    match fault
    case Missing => "FILE MISSING FOR"
    case Corrupted => "CORRUPTED FILE FOR"
  }

  function FaultNotice(fault: FileFault, iso: string): string
  {
    match fault
    case Missing => "----ERROR: No file for " + iso + "----"
    case Corrupted => "----ERROR: Corrupt file for " + iso + "----"
  }

  function ProgressNotice(iso: string): string
  {
    "Rendering data for " + iso
  }

  /** The settings `set_constants` installs; the plot handle is the frame list
      of the session. */
  datatype Config = Config(
    source: Template,
    dates: seq<Date>,
    colormap: string,
    shape: Shape,
    separateByte: int,
    verbose: bool,
    png: bool,
    rangeMode: bool)

  const DefaultConfig := Config([], [], "", Shape(0, 0), 0, false, false, false)

  /** One call's effect: its outcome, the cache afterwards, the frames drawn
      and the lines printed, in order. */
  datatype Step = Step(outcome: Outcome, cache: Option<Grid>, drawn: seq<Frame>, printed: seq<string>)

  /** The date a frame shows and the path it is read from. */
  datatype Resolved = Resolved(date: Date, path: string)

  /** The head of `render`: `dates_array[index]`, the range's end date six
      days later, and `form_uri`, each of which may raise. */
  function Resolve(cfg: Config, index: int): Result<Resolved, Uncaught>
  {
    match GetCurrentDatetime(cfg.dates, index)
    case None => Failure(IndexError)
    case Some(date) =>
      if cfg.rangeMode then
        match AddDays(date, 6)
        case None => Failure(OverflowError)
        case Some(end) => Located(date, FormUri(cfg.source, date, Some(end)))
      else Located(date, FormUri(cfg.source, date, None))
  }

  function Located(date: Date, uri: Result<string, string>): Result<Resolved, Uncaught>
  {
    match uri
    case Failure(key) => Failure(KeyError(key))
    case Success(path) => Success(Resolved(date, path))
  }

  /** The shape every call's effect has (see `RenderStep`). */
  predicate KeepsStepShape(r: Step, cache: Option<Grid>, png: bool)
  {
    && (r.outcome.Raises? ==> |r.drawn| == 0 && r.cache == cache)
    && (r.outcome.ReturnsImage? ==> r.drawn == [r.outcome.frame])
    && (r.outcome.ReturnsNone? ==> cache.Some? && r.cache == cache && |r.drawn| == 1)
    && (r.cache != cache ==> r.outcome.ReturnsImage? && !png && r.cache.Some?)
  }

  /** An error line is printed exactly when a fallback ran, and then it is
      the only line printed. */
  predicate ReportsFailures(r: Step)
  {
    && ((r.outcome.ReturnsNone? || r.outcome == Raises(UnboundLastDataset)) <==> (exists k :: 0 <= k < |r.printed| && IsErrorLine(r.printed[k])))
    && ((r.outcome.ReturnsNone? || r.outcome == Raises(UnboundLastDataset)) ==> |r.printed| == 1)
  }

  /** The fallback frame of an `except` clause: the notice for `fault` is
      the only line printed, and the only frame drawn is the cached grid
      under the annotated title. */
  predicate ShowsCached(r: Step, cfg: Config, cache: Option<Grid>, date: Date, fault: FileFault)
  {
    && cache.Some?
    && r.drawn == [CreatePlot(date, cache.value, cfg.colormap, cfg.separateByte, Some(FaultPrefix(fault)))]
    && r.printed == [FaultNotice(fault, IsoFormat(date))]
  }

  /** An `except` clause: print the notice, then draw the cached grid under
      the annotated title, and fall off the end of `render`. */
  function Fallback(cfg: Config, cache: Option<Grid>, date: Date, fault: FileFault): (r: Step)
    ensures KeepsStepShape(r, cache, cfg.png) && r.cache == cache && !r.outcome.ReturnsImage?
    ensures |r.printed| == 1 && IsErrorLine(r.printed[0])
    ensures r.printed == [FaultNotice(fault, IsoFormat(date))]
    ensures cache.Some? <==> r.outcome == ReturnsNone
    ensures cache.Some? ==> ShowsCached(r, cfg, cache, date, fault)
    ensures cache.None? ==> r.outcome == Raises(UnboundLastDataset) && r.drawn == []
  {
    NoticeIsErrorLine(IsoFormat(date));
    match cache
    case None => Step(Raises(UnboundLastDataset), cache, [], [FaultNotice(fault, IsoFormat(date))])
    case Some(g) =>
      Step(ReturnsNone, cache,
           [CreatePlot(date, g, cfg.colormap, cfg.separateByte, Some(FaultPrefix(fault)))],
           [FaultNotice(fault, IsoFormat(date))])
  }

  /** The `try` body finishing normally, then the `else` clause. */
  function Succeed(cfg: Config, date: Date, frame: Frame, cache: Option<Grid>): (r: Step)
    ensures r.outcome == ReturnsImage(frame) && r.drawn == [frame] && r.cache == cache
    ensures r.printed == (if cfg.verbose then [ProgressNotice(IsoFormat(date))] else [])
    ensures |r.printed| <= 1 && forall k :: 0 <= k < |r.printed| ==> !IsErrorLine(r.printed[k])
  {
    ProgressIsNotErrorLine(IsoFormat(date));
    Step(ReturnsImage(frame), cache, [frame], if cfg.verbose then [ProgressNotice(IsoFormat(date))] else [])
  }

  /** The image branch of the `try`: `mpimg.imread`, then a plot titled
      with `start_date`, which only range mode assigns. */
  function ImageStep(cfg: Config, cache: Option<Grid>, date: Date, path: string, fs: FileSystem, imread: seq<Byte> -> ImageRead): (r: Step)
    ensures KeepsStepShape(r, cache, true) && r.cache == cache && ReportsFailures(r)
    ensures r.outcome.ReturnsImage? ==> r.outcome.frame.title == IsoFormat(date)
    ensures r.outcome.ReturnsImage? ==> r.printed == (if cfg.verbose then [ProgressNotice(IsoFormat(date))] else [])
    ensures r.outcome == Raises(ImageUnreadable) <==> path in fs && imread(fs[path]).ImageUnreadableError?
    ensures r.outcome.ReturnsNone? ==> ShowsCached(r, cfg, cache, date, Missing) || ShowsCached(r, cfg, cache, date, Corrupted)
  {
    if path !in fs then Fallback(cfg, cache, date, Missing)
    else
      match imread(fs[path])
      case ImageValueError => Fallback(cfg, cache, date, Corrupted)
      case ImageUnreadableError => Step(Raises(ImageUnreadable), cache, [], [])
      case Image(g) =>
        if !cfg.rangeMode then Step(Raises(UnboundStartDate), cache, [], [])
        else Succeed(cfg, date, CreatePlot(date, g, cfg.colormap, cfg.separateByte, None), cache)
  }

  /** The binary branch of the `try`: decode, plot, then cache the raw grid. */
  function BinaryStep(cfg: Config, cache: Option<Grid>, date: Date, path: string, fs: FileSystem): (r: Step)
    ensures KeepsStepShape(r, cache, false) && ReportsFailures(r)
    ensures r.outcome.ReturnsImage? ==> r.outcome.frame.title == IsoFormat(date)
    ensures r.outcome.ReturnsImage? ==> r.printed == (if cfg.verbose then [ProgressNotice(IsoFormat(date))] else [])
    ensures r.outcome != Raises(ImageUnreadable)
    ensures r.outcome.ReturnsNone? ==> ShowsCached(r, cfg, cache, date, Missing) || ShowsCached(r, cfg, cache, date, Corrupted)
  {
    match DecodeFlatBinary(fs, path, cfg.shape)
    case NotFound => Fallback(cfg, cache, date, Missing)
    case Corrupt => Fallback(cfg, cache, date, Corrupted)
    case Decoded(g) => Succeed(cfg, date, CreatePlot(date, g, cfg.colormap, cfg.separateByte, None), Some(g))
  }

  /** `render(index)` on the given settings, cache and files: nothing is
      drawn when an exception escapes, the one frame drawn is returned on
      success, None is returned only after drawing the cached grid, and only
      a successful binary decode changes the cache. */
  function RenderStep(cfg: Config, cache: Option<Grid>, index: int, fs: FileSystem, imread: seq<Byte> -> ImageRead): (r: Step)
    ensures r.outcome.Raises? ==> |r.drawn| == 0 && r.cache == cache
    ensures r.outcome.ReturnsImage? ==> r.drawn == [r.outcome.frame]
    ensures r.outcome.ReturnsNone? ==> cache.Some? && r.cache == cache && |r.drawn| == 1
    ensures r.cache != cache ==> r.outcome.ReturnsImage? && !cfg.png && r.cache.Some?
    ensures r.outcome.ReturnsNone? ==>
      && Resolve(cfg, index).Success?
      && (ShowsCached(r, cfg, cache, Resolve(cfg, index).value.date, Missing)
          || ShowsCached(r, cfg, cache, Resolve(cfg, index).value.date, Corrupted))
    ensures r.outcome.ReturnsImage? ==>
      && Resolve(cfg, index).Success?
      && r.printed == (if cfg.verbose then [ProgressNotice(IsoFormat(Resolve(cfg, index).value.date))] else [])
  {
    match Resolve(cfg, index)
    case Failure(e) => Step(Raises(e), cache, [], [])
    case Success(Resolved(date, path)) =>
      if cfg.png then ImageStep(cfg, cache, date, path, fs, imread)
      else BinaryStep(cfg, cache, date, path, fs)
  }

  // ---------------------------------------------------------------------
  // Properties of one call

  /** Index, range and template errors escape before anything is read,
      drawn or printed. */
  lemma ResolveFailureEscapes(cfg: Config, cache: Option<Grid>, index: int, fs: FileSystem, imread: seq<Byte> -> ImageRead)
    requires Resolve(cfg, index).Failure?
    ensures var r := RenderStep(cfg, cache, index, fs, imread);
      r.outcome == Raises(Resolve(cfg, index).error) && r.cache == cache && r.drawn == [] && r.printed == []
  {
  }

  /** The frame's date is `dates[index]` (negative indices from the end); in
      range mode the path is formatted with the end date six days later. */
  lemma ResolveDateAndPath(cfg: Config, index: int)
    ensures Resolve(cfg, index).Success? ==>
      && -|cfg.dates| <= index < |cfg.dates|
      && Resolve(cfg, index).value.date == cfg.dates[index % |cfg.dates|]
      && Resolve(cfg, index).value.path ==
           (if cfg.rangeMode then FormUri(cfg.source, cfg.dates[index % |cfg.dates|], Some(cfg.dates[index % |cfg.dates|] + 6)).value
            else FormUri(cfg.source, cfg.dates[index % |cfg.dates|], None).value)
    ensures !(-|cfg.dates| <= index < |cfg.dates|) ==> Resolve(cfg, index) == Failure(IndexError)
  {
  }

  /** A binary file that decodes is drawn under the bare date, clamped, and
      its raw (unclamped) grid becomes the cache; the progress line is printed
      only when verbose. */
  lemma BinarySuccess(cfg: Config, cache: Option<Grid>, index: int, fs: FileSystem, imread: seq<Byte> -> ImageRead)
    requires !cfg.png && Resolve(cfg, index).Success?
    requires DecodeFlatBinary(fs, Resolve(cfg, index).value.path, cfg.shape).Decoded?
    ensures var date := Resolve(cfg, index).value.date;
      var g := DecodeFlatBinary(fs, Resolve(cfg, index).value.path, cfg.shape).grid;
      var r := RenderStep(cfg, cache, index, fs, imread);
      && r.outcome == ReturnsImage(CreatePlot(date, g, cfg.colormap, cfg.separateByte, None))
      && r.outcome.frame.title == IsoFormat(date)
      && r.cache == Some(g)
      && r.printed == (if cfg.verbose then ["Rendering data for " + IsoFormat(date)] else [])
  {
    var date := Resolve(cfg, index).value.date;
    IsoFormatFields(date);
  }

  /** A returned frame is titled with its bare date, in either mode. */
  lemma ReturnedFrameTitle(cfg: Config, cache: Option<Grid>, index: int, fs: FileSystem, imread: seq<Byte> -> ImageRead)
    ensures var r := RenderStep(cfg, cache, index, fs, imread);
      r.outcome.ReturnsImage? ==> Resolve(cfg, index).Success? && r.outcome.frame.title == IsoFormat(Resolve(cfg, index).value.date)
  {
  }

  /** A missing file (in either mode) prints the notice and draws the cached
      grid, clamped, under "FILE MISSING FOR <date>", returning None; with
      nothing cached the NameError escapes after the notice. */
  lemma MissingFile(cfg: Config, cache: Option<Grid>, index: int, fs: FileSystem, imread: seq<Byte> -> ImageRead)
    requires Resolve(cfg, index).Success? && Resolve(cfg, index).value.path !in fs
    ensures var date := Resolve(cfg, index).value.date;
      var r := RenderStep(cfg, cache, index, fs, imread);
      && r.printed == ["----ERROR: No file for " + IsoFormat(date) + "----"]
      && r.cache == cache
      && (cache.None? ==> r.outcome == Raises(UnboundLastDataset) && r.drawn == [])
      && (cache.Some? ==>
            && r.outcome == ReturnsNone
            && r.drawn == [CreatePlot(date, cache.value, cfg.colormap, cfg.separateByte, Some("FILE MISSING FOR"))]
            && r.drawn[0].title == "FILE MISSING FOR" + " " + IsoFormat(date))
  {
    var res := Resolve(cfg, index).value;
    if !cfg.png {
      assert DecodeFlatBinary(fs, res.path, cfg.shape) == NotFound;
    }
    assert RenderStep(cfg, cache, index, fs, imread) == Fallback(cfg, cache, res.date, Missing);
  }

  /** A binary file of the wrong length prints the notice and draws the
      cached grid, clamped, under "CORRUPTED FILE FOR <date>", returning None. */
  lemma CorruptBinary(cfg: Config, cache: Option<Grid>, index: int, fs: FileSystem, imread: seq<Byte> -> ImageRead)
    requires !cfg.png && Resolve(cfg, index).Success?
    requires var path := Resolve(cfg, index).value.path;
      path in fs && |fs[path]| != HeaderOffset(path) + cfg.shape.rows * cfg.shape.cols
    ensures var date := Resolve(cfg, index).value.date;
      var r := RenderStep(cfg, cache, index, fs, imread);
      && r.printed == ["----ERROR: Corrupt file for " + IsoFormat(date) + "----"]
      && r.cache == cache
      && (cache.None? ==> r.outcome == Raises(UnboundLastDataset) && r.drawn == [])
      && (cache.Some? ==>
            && r.outcome == ReturnsNone
            && r.drawn == [CreatePlot(date, cache.value, cfg.colormap, cfg.separateByte, Some("CORRUPTED FILE FOR"))]
            && r.drawn[0].title == "CORRUPTED FILE FOR" + " " + IsoFormat(date))
  {
  }

  /** An image the decoder rejects with ValueError prints the notice and
      draws the cached grid, clamped, under "CORRUPTED FILE FOR <date>",
      returning None; with nothing cached the NameError escapes. */
  lemma CorruptImage(cfg: Config, cache: Option<Grid>, index: int, fs: FileSystem, imread: seq<Byte> -> ImageRead)
    requires cfg.png && Resolve(cfg, index).Success?
    requires var path := Resolve(cfg, index).value.path;
      path in fs && imread(fs[path]).ImageValueError?
    ensures var date := Resolve(cfg, index).value.date;
      var r := RenderStep(cfg, cache, index, fs, imread);
      && r.printed == ["----ERROR: Corrupt file for " + IsoFormat(date) + "----"]
      && r.cache == cache
      && (cache.None? ==> r.outcome == Raises(UnboundLastDataset) && r.drawn == [])
      && (cache.Some? ==>
            && r.outcome == ReturnsNone
            && r.drawn == [CreatePlot(date, cache.value, cfg.colormap, cfg.separateByte, Some("CORRUPTED FILE FOR"))]
            && r.drawn[0].title == "CORRUPTED FILE FOR" + " " + IsoFormat(date))
  {
  }

  /** An image the decoder rejects with an error other than FileNotFoundError
      or ValueError escapes `render`: nothing is drawn, cached or printed.
      No other call raises that error. */
  lemma UnreadableImageEscapes(cfg: Config, cache: Option<Grid>, index: int, fs: FileSystem, imread: seq<Byte> -> ImageRead)
    ensures var r := RenderStep(cfg, cache, index, fs, imread);
      r.outcome == Raises(ImageUnreadable) <==>
        && cfg.png && Resolve(cfg, index).Success?
        && Resolve(cfg, index).value.path in fs
        && imread(fs[Resolve(cfg, index).value.path]).ImageUnreadableError?
    ensures var r := RenderStep(cfg, cache, index, fs, imread);
      r.outcome == Raises(ImageUnreadable) ==> r == Step(Raises(ImageUnreadable), cache, [], [])
  {
  }

  /** In range mode a decoded image is drawn, clamped, under the bare date
      and returned; the cache is kept and the progress line is printed only
      when verbose. */
  lemma ImageSuccess(cfg: Config, cache: Option<Grid>, index: int, fs: FileSystem, imread: seq<Byte> -> ImageRead)
    requires cfg.png && cfg.rangeMode && Resolve(cfg, index).Success?
    requires var path := Resolve(cfg, index).value.path;
      path in fs && imread(fs[path]).Image?
    ensures var date := Resolve(cfg, index).value.date;
      var frame := CreatePlot(date, imread(fs[Resolve(cfg, index).value.path]).grid, cfg.colormap, cfg.separateByte, None);
      var r := RenderStep(cfg, cache, index, fs, imread);
      && r.outcome == ReturnsImage(frame)
      && r.drawn == [frame]
      && r.cache == cache
      && r.printed == (if cfg.verbose then ["Rendering data for " + IsoFormat(date)] else [])
  {
  }

  /** Image mode never writes the cache; a decoded image is drawn only in
      range mode, where `start_date` is bound, and otherwise the NameError
      escapes. */
  lemma ImageModeKeepsCache(cfg: Config, cache: Option<Grid>, index: int, fs: FileSystem, imread: seq<Byte> -> ImageRead)
    requires cfg.png
    ensures RenderStep(cfg, cache, index, fs, imread).cache == cache
    ensures Resolve(cfg, index).Success? && Resolve(cfg, index).value.path in fs
            && imread(fs[Resolve(cfg, index).value.path]).Image? ==>
      RenderStep(cfg, cache, index, fs, imread).outcome ==
        if cfg.rangeMode then
          ReturnsImage(CreatePlot(Resolve(cfg, index).value.date, imread(fs[Resolve(cfg, index).value.path]).grid,
                                  cfg.colormap, cfg.separateByte, None))
        else Raises(UnboundStartDate)
  {
  }

  /** A line of the `except` clauses' form. */
  predicate IsErrorLine(line: string)
  {
    |line| >= 10 && line[..10] == "----ERROR:"
  }

  /** An error line is printed exactly on the two `except` paths, and those
      are the only calls that return None. */
  lemma NoticeOnlyOnFailure(cfg: Config, cache: Option<Grid>, index: int, fs: FileSystem, imread: seq<Byte> -> ImageRead)
    ensures var r := RenderStep(cfg, cache, index, fs, imread);
      (r.outcome.ReturnsNone? || r.outcome == Raises(UnboundLastDataset)) <==> (exists k :: 0 <= k < |r.printed| && IsErrorLine(r.printed[k]))
    ensures var r := RenderStep(cfg, cache, index, fs, imread);
      (r.outcome.ReturnsNone? || r.outcome == Raises(UnboundLastDataset)) ==> |r.printed| == 1
  {
    var r := RenderStep(cfg, cache, index, fs, imread);
    if Resolve(cfg, index).Failure? {
      assert r.printed == [];
    }
  }

  lemma NoticeIsErrorLine(iso: string)
    ensures IsErrorLine(FaultNotice(Missing, iso)) && IsErrorLine(FaultNotice(Corrupted, iso))
  {
    assert ("----ERROR: No file for " + iso + "----")[..10] == "----ERROR:";
    assert ("----ERROR: Corrupt file for " + iso + "----")[..10] == "----ERROR:";
  }

  lemma ProgressIsNotErrorLine(iso: string)
    ensures !IsErrorLine(ProgressNotice(iso))
  {
    assert ProgressNotice(iso)[0] == 'R';
  }

  /** A fallback shows the grid of the last binary frame that decoded: after
      a successful call, a call whose file is missing or corrupt draws that
      call's raw grid, clamped, under the annotated title. */
  lemma FallbackShowsLastGoodGrid(cfg: Config, cache: Option<Grid>, i: int, j: int, fs1: FileSystem, fs2: FileSystem,
                                  imread: seq<Byte> -> ImageRead)
    requires !cfg.png
    requires RenderStep(cfg, cache, i, fs1, imread).outcome.ReturnsImage?
    requires Resolve(cfg, j).Success? && !DecodeFlatBinary(fs2, Resolve(cfg, j).value.path, cfg.shape).Decoded?
    ensures var first := RenderStep(cfg, cache, i, fs1, imread);
      var g := DecodeFlatBinary(fs1, Resolve(cfg, i).value.path, cfg.shape).grid;
      var second := RenderStep(cfg, first.cache, j, fs2, imread);
      && first.cache == Some(g)
      && second.outcome == ReturnsNone
      && |second.drawn| == 1
      && second.drawn[0].data == CreatePlot(Resolve(cfg, j).value.date, g, cfg.colormap, cfg.separateByte, None).data
      && second.cache == first.cache
  {
  }

  /** Three daily binary frames whose middle file is missing: the first and
      third are drawn fresh from their own files, the second shows the first
      frame's grid under "FILE MISSING FOR <second date>", and only the
      second prints an error. */
  lemma MissingMiddleFrame(cfg: Config, cache: Option<Grid>, fs: FileSystem, imread: seq<Byte> -> ImageRead)
    requires !cfg.png && |cfg.dates| == 3
    requires Resolve(cfg, 0).Success? && Resolve(cfg, 1).Success? && Resolve(cfg, 2).Success?
    requires DecodeFlatBinary(fs, Resolve(cfg, 0).value.path, cfg.shape).Decoded?
    requires Resolve(cfg, 1).value.path !in fs
    requires DecodeFlatBinary(fs, Resolve(cfg, 2).value.path, cfg.shape).Decoded?
    ensures var g1 := DecodeFlatBinary(fs, Resolve(cfg, 0).value.path, cfg.shape).grid;
      var g3 := DecodeFlatBinary(fs, Resolve(cfg, 2).value.path, cfg.shape).grid;
      var r1 := RenderStep(cfg, cache, 0, fs, imread);
      var r2 := RenderStep(cfg, r1.cache, 1, fs, imread);
      var r3 := RenderStep(cfg, r2.cache, 2, fs, imread);
      && r1.outcome == ReturnsImage(CreatePlot(cfg.dates[0], g1, cfg.colormap, cfg.separateByte, None))
      && r1.outcome.frame.title == IsoFormat(cfg.dates[0])
      && r2.outcome == ReturnsNone
      && r2.drawn == [CreatePlot(cfg.dates[1], g1, cfg.colormap, cfg.separateByte, Some("FILE MISSING FOR"))]
      && r2.drawn[0].title == "FILE MISSING FOR" + " " + IsoFormat(cfg.dates[1])
      && r3.outcome == ReturnsImage(CreatePlot(cfg.dates[2], g3, cfg.colormap, cfg.separateByte, None))
      && r3.outcome.frame.title == IsoFormat(cfg.dates[2])
      && r3.cache == Some(g3)
      && r2.printed == ["----ERROR: No file for " + IsoFormat(cfg.dates[1]) + "----"]
      && (forall k :: 0 <= k < |r1.printed| ==> !IsErrorLine(r1.printed[k]))
      && (forall k :: 0 <= k < |r3.printed| ==> !IsErrorLine(r3.printed[k]))
  {
    ResolveDateAndPath(cfg, 0);
    ResolveDateAndPath(cfg, 1);
    ResolveDateAndPath(cfg, 2);
    var g1 := DecodeFlatBinary(fs, Resolve(cfg, 0).value.path, cfg.shape).grid;
    var r1 := RenderStep(cfg, cache, 0, fs, imread);
    BinarySuccess(cfg, cache, 0, fs, imread);
    assert r1.cache == Some(g1);
    var r2 := RenderStep(cfg, r1.cache, 1, fs, imread);
    MissingFile(cfg, r1.cache, 1, fs, imread);
    assert r2.cache == Some(g1);
    BinarySuccess(cfg, r2.cache, 2, fs, imread);
  }

  // ---------------------------------------------------------------------
  // The header offset on the registered families' paths

  /** A path whose leading literal names the "0051" family skips the 300-byte
      header, whatever the dates. */
  lemma LeadingLiteralOffset(t: Template, start: Date, end: Option<Date>)
    requires t != [] && t[0].Lit? && Contains(t[0].text, "0051")
    requires FormUri(t, start, end).Success?
    ensures HeaderOffset(FormUri(t, start, end).value) == 300
  {
    FormUriFirstPiece(t, start, end);
    var rest := FormUri(t[1..], start, end).value;
    assert FormUri(t, start, end).value == t[0].text + rest;
    ContainsBefore(t[0].text, rest, "0051");
  }

  /** Every path of the four "0051" templates skips the header. */
  lemma Nsidc0051Offset(start: Date, end: Option<Date>)
    ensures FormUri(Nsidc0051North, start, end).Success? && HeaderOffset(FormUri(Nsidc0051North, start, end).value) == 300
    ensures FormUri(Nsidc0051South, start, end).Success? && HeaderOffset(FormUri(Nsidc0051South, start, end).value) == 300
    ensures FormUri(Nsidc0051NorthStaging, start, end).Success? && HeaderOffset(FormUri(Nsidc0051NorthStaging, start, end).value) == 300
    ensures FormUri(Nsidc0051SouthStaging, start, end).Success? && HeaderOffset(FormUri(Nsidc0051SouthStaging, start, end).value) == 300
  {
    var projects, staging := "/projects/DATASETS/", "/disks/sidads_staging/DATASETS/";
    var dir, stagingDir := "nsidc0051_gsfc_nasateam_seaice", "nsidc0051_ gsfc_nasateam_seaice";
    OccursAtChars(dir, "0051", 5);
    OccursAtChars(stagingDir, "0051", 5);
    DailyTemplateOffset(Nsidc0051North, projects, dir, "/final-gsfc/north/daily/", start, end);
    DailyTemplateOffset(Nsidc0051South, projects, dir, "/final-gsfc/south/daily/", start, end);
    DailyTemplateOffset(Nsidc0051NorthStaging, staging, stagingDir, "/final-gsfc/north/daily/", start, end);
    DailyTemplateOffset(Nsidc0051SouthStaging, staging, dir, "/final-gsfc/south/daily/", start, end);
  }

  /** A daily template (year and date fields only) whose directory contains
      "0051" always formats, to a path that skips the header. */
  lemma DailyTemplateOffset(t: Template, root: string, dir: string, rest: string, start: Date, end: Option<Date>)
    requires |t| == 5 && t[0] == Lit(root + dir + rest) && t[1] == Field("yyyy") && t[2].Lit? && t[3] == Field("yymmdd") && t[4].Lit?
    requires Contains(dir, "0051")
    ensures FormUri(t, start, end).Success? && HeaderOffset(FormUri(t, start, end).value) == 300
  {
    assert forall i :: 0 <= i < |t| ==> HasValue(t[i], start, end);
    ContainsInMiddle(root, dir, rest, "0051");
    LeadingLiteralOffset(t, start, end);
  }

  /** A path whose start-date token contains "0051" skips the header too. */
  lemma StartTokenOffset(t: Template, start: Date, end: Option<Date>)
    requires |t| >= 2 && t[0].Lit? && t[1] == Field("syymmdd")
    requires FormUri(t, start, end).Success? && Contains(SmashedDate(start), "0051")
    ensures HeaderOffset(FormUri(t, start, end).value) == 300
  {
    FormUriFirstPiece(t, start, end);
    FormUriFirstPiece(t[1..], start, end);
    var rest := FormUri(t[2..], start, end).value;
    assert t[1..][1..] == t[2..];
    assert FormUri(t, start, end).value == t[0].text + SmashedDate(start) + rest;
    ContainsInMiddle(t[0].text, SmashedDate(start), rest, "0051");
  }

  /** The substring test also fires on a date token: a weekly "0046" file
      starting 2005-10-01 (token "20051001") is read as if it had the
      300-byte header. */
  lemma DateTokenTriggersOffset(start: Date, end: Date)
    requires FromOrdinal(start) == Civil(2005, 10, 1)
    ensures FormUri(Nsidc0046, start, Some(end)).Success?
    ensures HeaderOffset(FormUri(Nsidc0046, start, Some(end)).value) == 300
  {
    DigitsOf20051001();
    assert SmashedDate(start) == "20051001";
    TokenHasFamilyCode();
    StartTokenOffset(Nsidc0046, start, Some(end));
  }

  lemma TokenHasFamilyCode()
    ensures Contains("20051001", "0051")
  {
    OccursAtChars("20051001", "0051", 1);
  }

  lemma DigitsOf20051001()
    ensures Show(2005) == "2005" && ZFill(Show(10), 2) == "10" && ZFill(Show(1), 2) == "01"
  {
  }

  // ---------------------------------------------------------------------
  // The session

  /** The `const` settings, the `LAST_DATASET` cache, the plot's frames and
      the printed lines of one process. */
  class Session {
    var currentSource: Template
    var datesArray: seq<Date>
    var currentColormap: string
    var datasetShape: Shape
    var separateByte: int
    var verbose: bool
    var png: bool
    var rangeMode: bool
    /** `LAST_DATASET`; `None` while the global is unbound. */
    var lastDataset: Option<Grid>
    /** Every frame handed to the plotting backend, in order. */
    var plotted: seq<Frame>
    /** Every line printed, in order. */
    var log: seq<string>

    function CurrentConfig(): Config
      reads this
    {
      Config(currentSource, datesArray, currentColormap, datasetShape, separateByte, verbose, png, rangeMode)
    }

    /** The class attributes of `const` as the module defines them; nothing
        cached, drawn or printed. */
    constructor()
      ensures CurrentConfig() == DefaultConfig
      ensures lastDataset == None && plotted == [] && log == []
    {
      currentSource := [];
      datesArray := [];
      currentColormap := "";
      datasetShape := Shape(0, 0);
      separateByte := 0;
      verbose := false;
      png := false;
      rangeMode := false;
      lastDataset := None;
      plotted := [];
      log := [];
    }

    /** `const.set_constants(cs=…, da=…, cc=…, ds=…, p=…, sb=…, v=…, png=…,
        rng=…)`: every setting replaced, the cache, frames and log kept. */
    method SetConstants(cs: Template, da: seq<Date>, cc: string, ds: Shape, sb: int, v: bool, isPng: bool, rng: bool)
      modifies this
      ensures CurrentConfig() == Config(cs, da, cc, ds, sb, v, isPng, rng)
      ensures lastDataset == old(lastDataset) && plotted == old(plotted) && log == old(log)
    {
      currentSource := cs;
      datesArray := da;
      currentColormap := cc;
      datasetShape := ds;
      separateByte := sb;
      verbose := v;
      png := isPng;
      rangeMode := rng;
    }

    /** `set_last_dataset(g)`: the cache holds `g`, replacing what it held. */
    method SetLastDataset(g: Grid)
      modifies this
      ensures lastDataset == Some(g)
      ensures CurrentConfig() == old(CurrentConfig()) && plotted == old(plotted) && log == old(log)
    {
      lastDataset := Some(g);
    }

    /** `get_last_dataset()`: the grid last stored; `None` where Python raises
        NameError because nothing was ever stored. */
    method GetLastDataset() returns (r: Option<Grid>)
      ensures r == lastDataset
    {
      r := lastDataset;
    }

    /** `create_plot(const.PLOT, date, data, const.CURRENT_COLORMAP,
        const.SEPARATE_BYTE, title=prefix)`: one frame appended to the plot. */
    method Plot(date: Date, data: Grid, prefix: Option<string>) returns (f: Frame)
      modifies this
      ensures f == CreatePlot(date, data, currentColormap, separateByte, prefix)
      ensures plotted == old(plotted) + [f]
      ensures CurrentConfig() == old(CurrentConfig()) && lastDataset == old(lastDataset) && log == old(log)
    {
      f := CreatePlot(date, data, currentColormap, separateByte, prefix);
      plotted := plotted + [f];
    }

    /** One `except` clause of `render`. */
    method HandleFault(date: Date, fault: FileFault) returns (outcome: Outcome)
      modifies this
      ensures var step := Fallback(old(CurrentConfig()), old(lastDataset), date, fault);
        outcome == step.outcome && lastDataset == step.cache
        && plotted == old(plotted) + step.drawn && log == old(log) + step.printed
      ensures CurrentConfig() == old(CurrentConfig())
    {
      log := log + [FaultNotice(fault, IsoFormat(date))];
      var cached := GetLastDataset();
      if cached.None? {
        return Raises(UnboundLastDataset);
      }
      var _ := Plot(date, cached.value, Some(FaultPrefix(fault)));
      outcome := ReturnsNone;
    }

    /** The head of `render`: the frame's date and path, or the exception
        that escapes. */
    method ResolveFrame(index: int) returns (r: Result<Resolved, Uncaught>)
      ensures r == Resolve(CurrentConfig(), index)
    {
      var current := GetCurrentDatetime(datesArray, index);
      if current.None? {
        return Failure(IndexError);
      }
      var date := current.value;
      var uri: Result<string, string>;
      if rangeMode {
        var end := AddDays(date, 6);
        if end.None? {
          return Failure(OverflowError);
        }
        uri := FormUri(currentSource, date, Some(end.value));
      } else {
        uri := FormUri(currentSource, date, None);
      }
      if uri.Failure? {
        return Failure(KeyError(uri.error));
      }
      r := Success(Resolved(date, uri.value));
    }

    /** The `else` clause after the progress line the `try` prints when
        verbose. */
    method Finish(date: Date, frame: Frame) returns (outcome: Outcome)
      modifies this
      ensures outcome == ReturnsImage(frame)
      ensures log == old(log) + (if verbose then [ProgressNotice(IsoFormat(date))] else [])
      ensures CurrentConfig() == old(CurrentConfig()) && lastDataset == old(lastDataset) && plotted == old(plotted)
    {
      if verbose {
        log := log + [ProgressNotice(IsoFormat(date))];
      }
      outcome := ReturnsImage(frame);
    }

    method RenderImage(date: Date, path: string, fs: FileSystem, imread: seq<Byte> -> ImageRead) returns (outcome: Outcome)
      modifies this
      ensures var step := ImageStep(old(CurrentConfig()), old(lastDataset), date, path, fs, imread);
        outcome == step.outcome && lastDataset == step.cache
        && plotted == old(plotted) + step.drawn && log == old(log) + step.printed
      ensures CurrentConfig() == old(CurrentConfig())
    {
      if path !in fs {
        outcome := HandleFault(date, Missing);
        return;
      }
      var read := imread(fs[path]);
      if read.ImageValueError? {
        outcome := HandleFault(date, Corrupted);
      } else if read.ImageUnreadableError? {
        outcome := Raises(ImageUnreadable);
      } else if !rangeMode {
        outcome := Raises(UnboundStartDate);
      } else {
        var frame := Plot(date, read.grid, None);
        outcome := Finish(date, frame);
      }
    }

    method RenderBinary(date: Date, path: string, fs: FileSystem) returns (outcome: Outcome)
      modifies this
      ensures var step := BinaryStep(old(CurrentConfig()), old(lastDataset), date, path, fs);
        outcome == step.outcome && lastDataset == step.cache
        && plotted == old(plotted) + step.drawn && log == old(log) + step.printed
      ensures CurrentConfig() == old(CurrentConfig())
    {
      var decoded := DecodeFlatBinary(fs, path, datasetShape);
      if decoded.NotFound? {
        outcome := HandleFault(date, Missing);
      } else if decoded.Corrupt? {
        outcome := HandleFault(date, Corrupted);
      } else {
        var frame := Plot(date, decoded.grid, None);
        SetLastDataset(decoded.grid);
        outcome := Finish(date, frame);
      }
    }

    /** `render(index)`: the outcome, the cache, the frames drawn and the lines
        printed are those of `RenderStep` on the settings and cache before the
        call; the settings are not changed. */
    method Render(index: int, fs: FileSystem, imread: seq<Byte> -> ImageRead) returns (outcome: Outcome)
      modifies this
      ensures var step := RenderStep(old(CurrentConfig()), old(lastDataset), index, fs, imread);
        outcome == step.outcome && lastDataset == step.cache
        && plotted == old(plotted) + step.drawn && log == old(log) + step.printed
      ensures CurrentConfig() == old(CurrentConfig())
    {
      var resolved := ResolveFrame(index);
      if resolved.Failure? {
        return Raises(resolved.error);
      }
      if png {
        outcome := RenderImage(resolved.value.date, resolved.value.path, fs, imread);
      } else {
        outcome := RenderBinary(resolved.value.date, resolved.value.path, fs);
      }
    }
  }
}

=== FILE: wrappers.dfy ===
/** Option and Result values used for the source's error paths. */
module Wrappers {

  datatype Option<+T> = None | Some(value: T)

  datatype Result<+T, +E> = Success(value: T) | Failure(error: E)
}
